=== FILE: README.md ===
# Instafeed, modelled in Dafny

Instafeed (`lib/instafeed.js`) is a small browser library. It is
configured with an options object. It asks the Instagram API for a page
of recent media over JSONP, and it turns the JSON response into HTML by
filling user templates with `{{path}}` placeholders. This project models
that library as pure functions over an explicit JSON value type, and
proves what each step does:

- `Options`: the constructor's checks and defaults. Every option is
  either accepted with its documented default or rejected with an
  `InstafeedOptionsError` message. The endpoint URL is built from `get`,
  `tagName`, `locationId`, `userId`, `accessToken` and `limit`.
- `Pipeline`: `run`, `hasNext`, `next`, and the response handler
  `parse`. `parse` checks the envelope, shuffles or sorts the items,
  filters them, renders them, inserts the result, follows pagination and
  fires callbacks. It is modelled as an `Outcome`: the callback events in
  order, the inserted markup, and the new cursor.
- `Ordering`: the `most-`/`least-` comparator over a resolved key
  (`created_time`, `likes.count`, `comments.count`), and the
  Fisher–Yates loop behind `sort: "random"`.
- `ItemRenderer`: the required-field check on each item, the template
  values for images, videos and carousels, and the concatenation of the
  rendered pieces.
- `Projection`: one image or video resolution. This covers its checked
  fields, its source with `http:`/`https:` optionally stripped, and its
  orientation.
- `TemplateEngine`: `parseTemplate`, which repeatedly replaces the
  leftmost placeholder until none is left.
- `PathResolver`: `getObjectProperty`, which walks dotted and bracketed
  paths and returns `null` on missing names.
- `Js`: the JSON value type. It also gives the host-language facts the
  code relies on: `in`, property reads that throw on `null`, truthiness,
  and string conversion.
- `Wrappers` and `SeqFacts`: `Option`/`Result` and a few sequence lemmas.

JavaScript exceptions are `Result` errors of type `Js.Fault`:

- `Invalid` is the library's own `throw new Error()`.
- `HostTypeError` is a `TypeError` the engine raises, for example when
  reading a property of `null`.
- `OutOfFuel` stands for a substitution loop that has not finished.
- `Loops` stands for the shuffle loop that never ends on an empty array.

Random numbers, the uuid, `encodeURIComponent` and the presence of the
DOM target are parameters.

## Model

| member | source | states |
|---|---|---|
| Js.NatToString | lib/instafeed.js:33 | a number's decimal text is non-empty and all digits, with a leading `0` only for zero |
| Js.IntToString | lib/instafeed.js:46 | an integer's text is non-empty, starts with `-` iff the integer is negative, and its digits read back as its magnitude |
| Js.Truthy | lib/instafeed.js:186 | `null` and `undefined` are falsy, every object and array is truthy, and a string is truthy iff it is non-empty |
| Js.IndexRoundTrip | lib/instafeed.js:347 | an array index written as a property name reads back as the same index, so `"0" in arr` finds element 0 |
| Js.IndexCanonical | lib/instafeed.js:347 | only canonical decimal names (no leading zeros) denote array indices |
| Js.HasKey | lib/instafeed.js:347 | `key in v` holds for an object iff the name is one of its fields, and for an array iff it is `length` or the decimal name of an existing index |
| Js.IndexNames | lib/instafeed.js:347 | a name denotes an index below the length iff it is the decimal spelling of one |
| Js.Prop | lib/instafeed.js:347-348 | reading from `null`, `undefined`, a number or a boolean gives `undefined`; an object or array gives a value iff it has the name; an array's or a string's `length` is its size; and any other name present in an array gives one of its elements |
| Js.Get | lib/instafeed.js:301 | a property read throws exactly when the receiver is `null`/`undefined`, and otherwise yields the property |
| Js.ToStr | lib/instafeed.js:362-364 | the text a value becomes in the markup: a string is itself, a boolean is `true` or `false`, a number its decimal text, an empty array `""`, and a one-element array of a non-null value that value's text |
| PathResolver.Walk | lib/instafeed.js:345-351 | walking path pieces can only fail with a host `TypeError` (from `in` on a primitive) |
| PathResolver.Resolve | lib/instafeed.js:342-352 | resolving a path string can only fail with a host `TypeError` |
| PathResolver.WalkNull | lib/instafeed.js:347 | any path from `null` gives `null` |
| PathResolver.WalkAppend | lib/instafeed.js:345-349 | walking `ps + qs` is walking `ps` and then walking `qs` from that value, with `null` and errors passed through |
| PathResolver.WalkNest | lib/instafeed.js:345-351 | an object built along a path resolves back to its leaf |
| PathResolver.MissingNameGivesNull | lib/instafeed.js:347 | a name that the object or array reached so far does not have stops the walk with `null`, whatever follows |
| PathResolver.PresentNameIsFollowed | lib/instafeed.js:347-348 | a name that the object or array reached so far has continues the walk from that member |
| PathResolver.PrimitiveThrows | lib/instafeed.js:347 | `in` on a string, number or boolean makes the walk throw a `TypeError` |
| PathResolver.Normalize | lib/instafeed.js:343 | rewriting `[word]` into `.word` never lengthens the path, and a path without `[` is unchanged |
| PathResolver.Split | lib/instafeed.js:343 | `split` gives at least one piece, and no piece contains the separator |
| PathResolver.Segments | lib/instafeed.js:343 | a path gives at least one name, no name contains a dot, and a path without `[` gives exactly its `split(".")` |
| PathResolver.SplitJoin | lib/instafeed.js:343 | joining the pieces of `split(".")` with dots rebuilds the string |
| PathResolver.JoinSplit | lib/instafeed.js:343 | splitting a dot-join of dot-free pieces gives back the pieces |
| PathResolver.ResolveBracketIsDot | lib/instafeed.js:343 | `x[k]y` resolves exactly as `x.k y` for a word `k` |
| PathResolver.DottedSegments | lib/instafeed.js:343 | a dotted path of bracket-free pieces is split into exactly those pieces |
| TemplateEngine.FindFromSpec | lib/instafeed.js:355-358 | the search returns a placeholder position with no placeholder before it |
| TemplateEngine.Leftmost | lib/instafeed.js:355-358 | a template is clean iff it has no placeholder; otherwise the match is the leftmost one, and its path is the longest `\w+(\.\w+\|\[\w+\])*` run between the braces |
| TemplateEngine.Lookup | lib/instafeed.js:359-360 | looking up a placeholder value can only fail with a host `TypeError` |
| TemplateEngine.RenderWith | lib/instafeed.js:357-367 | a finished substitution leaves no placeholder, and a placeholder-free template comes back unchanged |
| TemplateEngine.RenderWithSpec | lib/instafeed.js:357-367 | the substitution fails only with an error of a lookup or by not finishing |
| TemplateEngine.Render | lib/instafeed.js:354-368 | `parseTemplate` returns text with no placeholder, leaves placeholder-free text alone, and fails only with a `TypeError` or by not finishing |
| TemplateEngine.RenderLiteralPrefix | lib/instafeed.js:357-365 | text without `{` in front of the template passes through rendering unchanged |
| TemplateEngine.RenderIsExpand | lib/instafeed.js:354-368 | for a template whose literal text holds no `{`, whose every hole is exactly one path expression, and whose every successfully looked-up value holds no `{`, rendering with at least one step per hole equals substituting every hole of the template independently, left to right |
| TemplateEngine.RepeatedPlaceholder | lib/instafeed.js:354-368 | both occurrences of a repeated placeholder are replaced (`{{a.b}}-{{a.b}}` gives `x-x`) |
| Projection.OrientationOf | lib/instafeed.js:257 | square iff width equals height, landscape iff wider, portrait iff taller |
| Projection.OrientationNameInjective | lib/instafeed.js:257 | the three orientation names tell the orientations apart |
| Projection.OrientationTranspose | lib/instafeed.js:257 | swapping width and height swaps landscape and portrait and keeps square |
| Projection.StripScheme | lib/instafeed.js:256 | the result is the URL or the URL with `http:`/`https:` removed, and always a suffix of it |
| Projection.StripHttp | lib/instafeed.js:256 | `http:` is removed from the front |
| Projection.StripHttps | lib/instafeed.js:256 | `https:` is removed as a whole, not just `http` |
| Projection.StripNoScheme | lib/instafeed.js:256 | a URL without either prefix is unchanged |
| Projection.Source | lib/instafeed.js:256 | without `relativeScheme` the source is the URL; with it, a suffix of the URL |
| Projection.ReadAsset | lib/instafeed.js:254-255 | a resolution is accepted iff it is truthy with a string `url` and numeric `width`/`height`, and the asset holds exactly those fields; otherwise a plain `Error` |
| Projection.ReadAssetObject | lib/instafeed.js:254-255 | an asset object with extra fields reads back as that asset |
| Projection.ProjectValues | lib/instafeed.js:256-264 | the four template values are the source, the copied size and the orientation name, each under its own key |
| ItemRenderer.TextOr | lib/instafeed.js:244 | caption and location text is the nested string when the parent is truthy and the field is a string, and `""` otherwise |
| ItemRenderer.HasRequiredFields | lib/instafeed.js:235 | an item passes the required-field test only if it is an object holding every required name |
| ItemRenderer.CommonValues | lib/instafeed.js:235-252 | an item is accepted iff it has every required field with the required type; otherwise `null` throws a `TypeError` and anything else a plain `Error` |
| ItemRenderer.CommonMapKeys | lib/instafeed.js:237-252 | the shared template values have exactly the documented fourteen names, with `model` the item itself |
| ItemRenderer.ShapeKeys | lib/instafeed.js:237-252 | every read item has the same fourteen names, with `type` the item's type |
| ItemRenderer.PostRoundTrip | lib/instafeed.js:235-252 | a well-formed post passes the required-field test, and its values are the post's fields, with an absent caption or location read as `""` |
| ItemRenderer.MissingFieldRejected | lib/instafeed.js:235 | removing any one required top-level field makes the item fail with a plain `Error` |
| ItemRenderer.ImageValuesSpec | lib/instafeed.js:259-265 | image values keep the shared values and add the preview's source, size and orientation |
| ItemRenderer.VideoValuesSpec | lib/instafeed.js:268-280 | video values keep the shared values, add the preview under `preview*` names, and add the video under the plain names |
| ItemRenderer.FrameValuesSpec | lib/instafeed.js:283-288 | carousel frame values keep the shared values, add the preview, and hold the rendered media in `carousel` |
| ItemRenderer.MediaValuesSpec | lib/instafeed.js:294-306 | a carousel entry's values are its `type` plus its own source, size and orientation |
| ItemRenderer.Fill | lib/instafeed.js:265 | filling a template fails only with a `TypeError` or by not finishing, and a placeholder-free template is kept verbatim |
| ItemRenderer.ConcatAllSpec | lib/instafeed.js:234 | concatenation succeeds iff every piece renders; otherwise the error is that of the first failing piece |
| ItemRenderer.ConcatAllAppend | lib/instafeed.js:291-321 | rendering `xs + ys` is rendering `xs` and then `ys`, and stops at the first error |
| ItemRenderer.ItemJobFaults | lib/instafeed.js:234-289 | a `null` item throws a `TypeError`; a malformed one throws `Error`; an unknown type with a valid preview renders nothing |
| ItemRenderer.ItemJob | lib/instafeed.js:234-289 | a `null` item throws a `TypeError`; an accepted item has every required field; and the template chosen is `imageTemplate`, `videoTemplate` or `carouselFrameTemplate` |
| ItemRenderer.ImageJob | lib/instafeed.js:259-266 | an image renders `imageTemplate` with the shared and preview values |
| ItemRenderer.VideoJob | lib/instafeed.js:268-281 | a video renders `videoTemplate` with the shared values, the preview and the chosen video resolution |
| ItemRenderer.CarouselJob | lib/instafeed.js:283-324 | a carousel renders `carouselFrameTemplate`, with `carousel` the concatenated media of `carousel_media` |
| ItemRenderer.MediaJob | lib/instafeed.js:291-319 | a `null` entry throws a `TypeError` and a non-string type throws `Error`; an entry renders nothing iff its type is a string other than `image` and `video`; an entry that renders uses `carouselImageTemplate` or `carouselVideoTemplate` |
| ItemRenderer.MediaJobShape | lib/instafeed.js:298-319 | an image entry needs the parent's `images` and reads its own `images`; a video entry does the same with `videos` |
| ItemRenderer.VideoMediaNeedsParentVideos | lib/instafeed.js:310-311 | a video entry fails when the parent item has no `videos`, even if the entry has its own |
| ItemRenderer.ImageMediaReadsOwnImages | lib/instafeed.js:300-301 | an image entry without its own `images` throws a `TypeError` even when the parent has them |
| ItemRenderer.RunFaults | lib/instafeed.js:265 | rendering a job fails only with a `TypeError` or by not finishing |
| ItemRenderer.MediaFaults | lib/instafeed.js:291-321 | rendering the carousel media fails only with `TypeError`, `Error` or by not finishing |
| ItemRenderer.RenderItem | lib/instafeed.js:234-325 | an item fails only with `TypeError`, `Error` or by not finishing; a `null` item throws a `TypeError`, any other item missing a required field throws `Error`, and a skipped type contributes `""` |
| ItemRenderer.RenderAll | lib/instafeed.js:234-326 | the page renders iff every item renders; otherwise the first failing item's error is thrown, and it is one of the three faults |
| Ordering.KeyOf | lib/instafeed.js:219-221 | a sort key is never `null`; a missing key throws `Error`, and a primitive along the path throws a `TypeError` |
| Ordering.KeyOfNest | lib/instafeed.js:204-221 | an item holding a value at the metric's path has that value as its key |
| Ordering.StrLessTotal | lib/instafeed.js:222 | string `<` orders any two distinct strings |
| Ordering.StrLessTransitive | lib/instafeed.js:222 | string `<` is transitive |
| Ordering.Less | lib/instafeed.js:222 | `<` relates only distinct keys of one kind, and on numbers it is numeric `<` |
| Ordering.LessTotal | lib/instafeed.js:222 | `<` orders distinct keys of the same kind |
| Ordering.LessTransitive | lib/instafeed.js:222 | `<` on keys is transitive |
| Ordering.Compare | lib/instafeed.js:222 | the comparator never returns 0 |
| Ordering.CompareSpec | lib/instafeed.js:201-222 | for distinct keys, -1 means "in order" (ascending for `least`, descending for `most`) and the comparator is antisymmetric; equal keys give -1 for `most` and 1 for `least` |
| Ordering.InOrderTransitive | lib/instafeed.js:201-222 | the order the comparator induces is transitive on keys of one kind |
| Ordering.Insert | lib/instafeed.js:218-223 | inserting adds exactly one element |
| Ordering.InsertionSort | lib/instafeed.js:218-223 | sorting returns a permutation of the items |
| Ordering.InsertOrdered | lib/instafeed.js:218-223 | inserting into an ordered list keeps it ordered |
| Ordering.InsertionSortOrdered | lib/instafeed.js:218-223 | the sorted list is ordered when all keys are of one kind |
| Ordering.FirstBad | lib/instafeed.js:219-221 | there is no bad key iff every item has a key |
| Ordering.FirstBadIsFirst | lib/instafeed.js:219-221 | the reported fault belongs to the first item without a key |
| Ordering.SortByMetric | lib/instafeed.js:199-223 | sorting fails iff there are two or more items and one has no key, with the first such item's fault; otherwise the result is a permutation, ordered when the keys are of one kind |
| Ordering.NumericOrder | lib/instafeed.js:201-223 | with numeric keys, `most-*` orders by non-increasing and `least-*` by non-decreasing key |
| Ordering.Pick | lib/instafeed.js:194 | `Math.floor(Math.random() * (i + 1))` is an index in `0..i` |
| Ordering.Swap | lib/instafeed.js:195-197 | the swap exchanges two entries and keeps the others |
| Ordering.ShuffleFrom | lib/instafeed.js:193-198 | the loop keeps the array's length |
| Ordering.ShuffleFromPermutes | lib/instafeed.js:193-198 | the shuffle loop permutes the array |
| Ordering.ShuffleFromKeepsTail | lib/instafeed.js:193-198 | positions above the loop counter are no longer touched |
| Ordering.ShuffleLoop | lib/instafeed.js:193-198 | the loop started at the last index permutes the array, and the last slot ends up holding the element of the first draw |
| Ordering.Shuffle | lib/instafeed.js:192-198 | shuffling a non-empty array permutes it, with the last slot taken from the first draw; an empty array never finishes |
| Ordering.ShuffleInPlace | lib/instafeed.js:192-198 | the in-place loop computes the same permutation, with one draw per step |
| Options.ParseOrder | lib/instafeed.js:66 | a sort order is recognised only from its own name |
| Options.OrderRoundTrip | lib/instafeed.js:66 | every one of the eight orders is recognised from its name |
| Options.Endpoint | lib/instafeed.js:25-52 | endpoint errors are the four `get`/`tagName`/`locationId`/`userId` messages |
| Options.EndpointSpec | lib/instafeed.js:25-52 | the endpoint is accepted iff `get` is `tag` with a string tag, `location` with a numeric id, or absent/`user` with an absent or numeric user id; and gives `tags/…`, `locations/…` or `users/self` |
| Options.CountParam | lib/instafeed.js:58-61 | `limit` is rejected iff present and not a number; absent or 0 adds no `&count=` |
| Options.SortOpt | lib/instafeed.js:63-68 | `sort` is rejected iff present and its string form is none of the eight orders; a string is kept as its order, anything else is kept as given |
| Options.TextOpt | lib/instafeed.js:70-103 | a text option is rejected iff present and not a string; otherwise the value or its default |
| Options.FlagOpt | lib/instafeed.js:119-138 | a flag is rejected iff present and not a boolean; otherwise the value or its default |
| Options.ChoiceOpt | lib/instafeed.js:105-117 | a resolution is rejected iff present and its string form is not one of the allowed names; the result is always allowed |
| Options.MessagesAreOptionsErrors | lib/instafeed.js:22-137 | every constructor message starts with `InstafeedOptionsError: ` |
| Options.ReadRequestAccepts | lib/instafeed.js:25-68 | the request options are accepted iff each one is acceptable; rejections are options errors |
| Options.ReadTemplatesAccepts | lib/instafeed.js:70-103 | the five templates are accepted iff each is absent or a string |
| Options.ReadLookAccepts | lib/instafeed.js:70-138 | the rendering options are accepted iff each one is acceptable |
| Options.ParseOptionsAccepts | lib/instafeed.js:20-145 | the constructor succeeds iff `options` is truthy and every option is acceptable; every failure is an options error |
| Options.TokenOnlyDefaults | lib/instafeed.js:20-145 | `{accessToken}` alone gives the `users/self` URL, no sorting, the default templates and resolutions, target `instafeed`, no mock |
| Options.ArraySortAccepted | lib/instafeed.js:66-67 | `sort: ["random"]` is accepted by the constructor, because the regular expression tests its string form |
| Options.ReadRequest | lib/instafeed.js:25-68 | endpoint errors come first, then a non-string `accessToken` is rejected with its message; an accepted request's URL lies under the API root, and its order is the `sort` option's |
| Options.ReadTemplates | lib/instafeed.js:70-103 | each accepted template is the option's string when the option is present, and its default when absent |
| Options.ReadLook | lib/instafeed.js:70-138 | a template error comes first; an accepted result uses the chosen image template and allowed resolutions, and its target is the `target` string or `instafeed` |
| Options.ParseOptions | lib/instafeed.js:20-145 | falsy options are rejected with the missing-options message; accepted settings have a URL under the API root, allowed resolutions, the chosen target and the `sort` option's order |
| Pipeline.NewFeed | lib/instafeed.js:20-145 | an instance exists iff its options are accepted; it starts without a next page and keeps its callbacks, and its first `run` requests the configured URL |
| Pipeline.HasNext | lib/instafeed.js:164-166 | there is a next page iff the cursor is non-empty |
| Pipeline.RunRequest | lib/instafeed.js:147-154 | `run` fails without `window` or `document`, with the matching message, and otherwise requests `nextUrl \|\| url` |
| Pipeline.Next | lib/instafeed.js:164-173 | `next` does nothing without a next page; otherwise it requests that page and clears the cursor |
| Pipeline.NextTwice | lib/instafeed.js:168-173 | a second `next` with no response in between does nothing |
| Pipeline.CheckEnvelope | lib/instafeed.js:186-187 | the envelope passes iff `meta.code` is 200; a missing or non-numeric code is an invalid response; another code reports the API error when both strings are present, and a connection error otherwise |
| Pipeline.Arrange | lib/instafeed.js:192-224 | shuffling or sorting keeps the same items; it never returns exactly when it shuffles an empty list, and otherwise fails only with `Error` or a `TypeError` |
| Pipeline.PageMarkup | lib/instafeed.js:190-234 | falsy `data` is the generic error and truthy non-array `data` a `TypeError`; the page never finishes iff it shuffles an empty array; any other failure is `Error`, a `TypeError` or an unfinished template |
| Pipeline.Keep | lib/instafeed.js:226-230 | filtering never adds items |
| Pipeline.KeepSpec | lib/instafeed.js:226-230 | without a filter every item is kept; with one, an item is kept iff it passes |
| Pipeline.KeepAppend | lib/instafeed.js:226-230 | filtering keeps the relative order of the items |
| Pipeline.NextCursor | lib/instafeed.js:335 | the cursor becomes `pagination.next_url` when that is a string, and is unchanged otherwise, whatever `pagination` itself is |
| Pipeline.EnvelopeFailure | lib/instafeed.js:185-187 | a bad envelope calls only `onError`, inserts nothing and keeps the cursor |
| Pipeline.Parse | lib/instafeed.js:181-340 | the handler never returns iff the envelope is good, mock is off, the order is random and `data` is `[]`; a template that does not finish is met only past a good envelope outside mock mode; markup is inserted only outside mock mode into an existing target; and the cursor left is the old one or a string `next_url` of the response |
| Pipeline.MockSuccess | lib/instafeed.js:189-336 | in mock mode a good envelope skips rendering, updates the cursor and calls `onSuccess` |
| Pipeline.InvalidPage | lib/instafeed.js:190-338 | an invalid page reports `Invalid response from Instagram` without firing `onBefore`, inserts nothing and keeps the cursor |
| Pipeline.RenderedPage | lib/instafeed.js:327-336 | a rendered page fires `onBefore`, inserts the markup, fires `onAfter`, updates the cursor and fires `onSuccess`, in that order |
| Pipeline.MissingTarget | lib/instafeed.js:328-330 | without the target element `onBefore` still fires, then `onError` with the no-target message, and nothing is inserted |
| Pipeline.CursorOnlyOnSuccess | lib/instafeed.js:327-335 | the cursor moves or markup is inserted only on a good envelope that is mock or fully rendered, and the new cursor is the response's `next_url` |
| Pipeline.ErrorIsLast | lib/instafeed.js:336-338 | an error event, if any, is the last event |
| Pipeline.MissingFieldFailsPage | lib/instafeed.js:234-235 | the first kept item missing a required field fails the whole page |
| Pipeline.CoercedSortFails | lib/instafeed.js:199-200 | a non-string `sort` that passed the constructor makes every non-mock page whose `data` is an array fail with a host error |
| Pipeline.UnsortedUnfiltered | lib/instafeed.js:189-234 | with no sort and no filter the page is rendered in response order |

## Left out

- Network I/O: the JSONP `<script>` element, its `onerror` handler and the `window[uuid]` registry. `RunRequest` returns the URL to request, and `Parse` takes the response as a value. A connection failure is the `ConnectionFailed` message that `onerror` would report.
- DOM construction and insertion: the rendered HTML is a string. Whether the target element exists is an input. The temporary `<div>`'s HTML parsing is not modelled.
- `uuidv4` and `Math.random`: the uuid is a string parameter. The random draws are a function from draw number to a real in [0, 1).
- `encodeURIComponent` and `Number.prototype.toString` for non-integers are not modelled. Encoding is an opaque `encode` parameter, and numbers are integers.
- Callbacks are a separate `Hooks` record holding which callbacks are functions, plus a pure filter. A callback that throws is not modelled, and neither is the `response` object passed to `onSuccess`.
- The `filter` deletes array slots, and `forEach` then skips them. This is modelled as removing the items, which is what the rendering loop sees.
- `TemplateEngine.Render`: the substitution loop in `parseTemplate` is bounded by fuel. A value that keeps re-creating a placeholder (say, `{{a}}` whose value is `{{a}}`) makes the source loop forever. Here it ends as `OutOfFuel`, and `Parse` reports it as `Unfinished`.
- `Ordering.SortByMetric`: JavaScript's sort algorithm is not specified. Insertion sort stands in for it, so the contract promises a permutation and the order. It does not promise the engine's order among equal keys or the engine's calls of the comparator. It also promises order only when all keys are of one kind (all numbers or all strings). JavaScript's `<` on any other pair, such as two booleans, two objects, or a number and a string, converts its operands and is not modelled: `Ordering.Less` leaves every such pair unordered.
- `Ordering.SortByMetric`: when several items lack keys, the engine may hit a different one first, with a different error kind. The model reports the first in array order.
- `Ordering.StrLessTotal`: strings compare by Dafny `char`. This matches UTF-16 code units only below the surrogate range.
- `Pipeline.PageMarkup`: `data` is not an array but a truthy array-like value, and the sort is `random`. The source then runs its shuffle loop on that value, counting down from `length - 1` until the counter is 0. The loop never stops when `length` converts to a number that is 0 or less, that is not an integer, or that is so large (beyond 2^53) that subtracting 1 no longer changes it. Examples are `-1`, `0.5`, `null`, `""`, `false` and `[]` (an absent `length` gives `NaN`, so the loop does not run). The model reports a `TypeError` at once for all such values.
- `Pipeline.Parse`: for the same array-like `data` with a never-ending `length` (say `{data: {length: 0}}` with sort `random`), the source never returns. Here the page fails with a `TypeError`, so `Diverges` is promised only for the empty array `[]`.
- Floating-point numbers are not modelled. Every JSON number is an unbounded integer. The model does not round integers above 2^53, and it has no exponent form: JavaScript writes integers from 10^21 up as, say, `1e+21`, while `Js.NatToString` writes all the digits. This affects the ids and the limit in the URL (lib/instafeed.js:33, :46 and :60), numeric template values, and comparisons of very large keys.
- The prototype chain seen by `in` and by property reads (for instance `"push" in arr` or `"toString" in obj`, both true in JavaScript) is not modelled. Only own JSON members count.
- The UMD wrapper at the end of the file, which exports the constructor, is not modelled.

=== FILE: item_renderer.dfy ===
/** The per-item step of `parse` (lib/instafeed.js): check the required
    fields of one item of `response.data`, build its template values, and
    render the template for its `type`; a carousel renders its sub-items
    first and passes their concatenation to the frame template. */
module ItemRenderer {
  import opened Wrappers
  import opened Js
  import opened TemplateEngine
  import opened Projection

  /** The instance settings one item is rendered with. */
  datatype RenderConfig = RenderConfig(
    imageTemplate: string,
    videoTemplate: string,
    carouselFrameTemplate: string,
    carouselImageTemplate: string,
    carouselVideoTemplate: string,
    imageResolution: string,
    videoResolution: string,
    relativeScheme: bool)

  /** `v.k` for a value known not to be null. */
  function Field(v: Value, k: string): Slot {
    Prop(Some(v), k)
  }

  // ---------------------------------------------------------------------
  // Required fields and the common template values

  /** The condition at the head of the per-item callback, negated: every
      required field is present with the right `typeof`, and the objects
      holding them are truthy. */
  predicate HasRequiredFields(d: Value)
    ensures HasRequiredFields(d) ==> d.Obj? && RequiredKeys <= d.fields.Keys
  {
    && IsString(Field(d, "id"))
    && IsString(Field(d, "type"))
    && Truthy(Field(d, "images"))
    && Truthy(Field(d, "user"))
    && IsString(Prop(Field(d, "user"), "id"))
    && IsString(Prop(Field(d, "user"), "full_name"))
    && IsString(Prop(Field(d, "user"), "profile_picture"))
    && IsString(Prop(Field(d, "user"), "username"))
    && IsBoolean(Field(d, "user_has_liked"))
    && Truthy(Field(d, "likes"))
    && IsNumber(Prop(Field(d, "likes"), "count"))
    && Truthy(Field(d, "comments"))
    && IsNumber(Prop(Field(d, "comments"), "count"))
    && IsString(Field(d, "created_time"))
    && IsString(Field(d, "link"))
  }

  /** The top-level names the field check requires. */
  const RequiredKeys: set<string> := {
    "id", "type", "images", "user", "user_has_liked", "likes", "comments",
    "created_time", "link"}

  /** `o && typeof o[k] === "string" ? o[k] : ""`. */
  function TextOr(o: Slot, k: string): (r: string)
    ensures Truthy(o) && IsString(Prop(o, k)) ==> Some(Str(r)) == Prop(o, k)
    ensures !(Truthy(o) && IsString(Prop(o, k))) ==> r == ""
  {
    if Truthy(o) && IsString(Prop(o, k)) then Prop(o, k).value.s else ""
  }

  /** The names of the values every item gets. */
  const CommonKeys: set<string> := {
    "id", "type", "userId", "fullName", "profilePicture", "username", "caption",
    "userLiked", "likes", "comments", "location", "time", "link", "model" }

  /** The typed fields of an item that passed the required-field test, with `caption`
      and `location` already defaulted. */
  datatype Common = Common(
    id: string, kind: string, userId: string, fullName: string, picture: string,
    username: string, caption: string, liked: bool, likes: int, comments: int,
    location: string, time: string, link: string)

  /** Reading the fields the required-field test has vouched for. */
  function ReadCommon(d: Value): Common
    requires HasRequiredFields(d)
  {
    var user := Field(d, "user");
    Common(
      Field(d, "id").value.s, Field(d, "type").value.s,
      Prop(user, "id").value.s, Prop(user, "full_name").value.s,
      Prop(user, "profile_picture").value.s, Prop(user, "username").value.s,
      TextOr(Field(d, "caption"), "text"), Field(d, "user_has_liked").value.b,
      Prop(Field(d, "likes"), "count").value.n, Prop(Field(d, "comments"), "count").value.n,
      TextOr(Field(d, "location"), "name"), Field(d, "created_time").value.s,
      Field(d, "link").value.s)
  }

  /** The `templateValues` object literal. */
  function Shape(c: Common, model: Value): map<string, Value> {
    map[
      "id" := Str(c.id),
      "type" := Str(c.kind),
      "userId" := Str(c.userId),
      "fullName" := Str(c.fullName),
      "profilePicture" := Str(c.picture),
      "username" := Str(c.username),
      "caption" := Str(c.caption),
      "userLiked" := Str(if c.liked then "true" else "false"),
      "likes" := Num(c.likes),
      "comments" := Num(c.comments),
      "location" := Str(c.location),
      "time" := Str(c.time),
      "link" := Str(c.link),
      "model" := model]
  }

  /** The field check and the `templateValues` object literal. Reading
      `data.id` throws when the item is null; after that every read is
      guarded by a truthiness test, so no other read throws. */
  function CommonValues(d: Value): (r: Result<map<string, Value>, Fault>)
    ensures r.Err? ==> (d.Null? && r.error == HostTypeError) || (!d.Null? && r.error == Invalid)
    ensures r.Ok? <==> !d.Null? && HasRequiredFields(d)
  {
    if d.Null? then Err(HostTypeError)
    else if !HasRequiredFields(d) then Err(Invalid)
    else Ok(CommonMap(d))
  }

  function CommonMap(d: Value): map<string, Value>
    requires HasRequiredFields(d)
  {
    Shape(ReadCommon(d), d)
  }

  /** The common values have the fourteen names; `model` is the item itself
      and `type` its type. */
  lemma CommonMapKeys(d: Value)
    requires HasRequiredFields(d)
    ensures CommonMap(d).Keys == CommonKeys
    ensures CommonMap(d)["model"] == d && Some(CommonMap(d)["type"]) == Field(d, "type")
  {
    ReadCommonKind(d);
    ShapeKeys(ReadCommon(d), d);
    hide Shape, ReadCommon;
  }

  lemma ReadCommonKind(d: Value)
    requires HasRequiredFields(d)
    ensures Some(Str(ReadCommon(d).kind)) == Field(d, "type")
  {
    hide TextOr;
  }

  lemma ShapeKeys(c: Common, model: Value)
    ensures Shape(c, model).Keys == CommonKeys
    ensures Shape(c, model)["model"] == model && Shape(c, model)["type"] == Str(c.kind)
  {
  }

  // ---------------------------------------------------------------------
  // The values each template sees

  /** The four names every asset projection uses. */
  const AssetKeys: set<string> := {"source", "width", "height", "orientation"}
  const PreviewAssetKeys: set<string> := {"previewSource", "previewWidth", "previewHeight", "previewOrientation"}

  function ImageValues(common: map<string, Value>, preview: Asset, rel: bool): map<string, Value> {
    common + Project(preview, rel, PlainKeys)
  }

  function VideoValues(common: map<string, Value>, preview: Asset, video: Asset, rel: bool): map<string, Value> {
    common + Project(preview, rel, PreviewKeys) + Project(video, rel, PlainKeys)
  }

  function FrameValues(common: map<string, Value>, preview: Asset, inner: string, rel: bool): map<string, Value> {
    common + Project(preview, rel, PreviewKeys) + map["carousel" := Str(inner)]
  }

  function MediaValues(kind: string, a: Asset, rel: bool): map<string, Value> {
    map["type" := Str(kind)] + Project(a, rel, PlainKeys)
  }

  /** An asset under the plain names: its source, size and orientation. */
  predicate ShowsAsset(values: map<string, Value>, a: Asset, rel: bool) {
    && AssetKeys <= values.Keys
    && values["source"] == Str(Source(a.url, rel))
    && values["width"] == Num(a.width)
    && values["height"] == Num(a.height)
    && values["orientation"] == Str(OrientationName(OrientationOf(a.width, a.height)))
  }

  /** An asset under the `preview` names. */
  predicate ShowsPreview(values: map<string, Value>, a: Asset, rel: bool) {
    && PreviewAssetKeys <= values.Keys
    && values["previewSource"] == Str(Source(a.url, rel))
    && values["previewWidth"] == Num(a.width)
    && values["previewHeight"] == Num(a.height)
    && values["previewOrientation"] == Str(OrientationName(OrientationOf(a.width, a.height)))
  }

  /** The common values, kept by every later addition. */
  predicate KeepsCommon(values: map<string, Value>, common: map<string, Value>) {
    && "model" in common && "type" in common
    && common.Keys <= values.Keys
    && values["model"] == common["model"]
    && values["type"] == common["type"]
  }

  /** An asset's projection under the plain names. */
  lemma PlainProjection(a: Asset, rel: bool)
    ensures var p := Project(a, rel, PlainKeys);
      && p.Keys == AssetKeys
      && p["source"] == Str(Source(a.url, rel))
      && p["width"] == Num(a.width)
      && p["height"] == Num(a.height)
      && p["orientation"] == Str(OrientationName(OrientationOf(a.width, a.height)))
  {
    hide Source, OrientationName, OrientationOf;
  }

  /** An asset's projection under the `preview` names. */
  lemma PreviewProjection(a: Asset, rel: bool)
    ensures var p := Project(a, rel, PreviewKeys);
      && p.Keys == PreviewAssetKeys
      && p["previewSource"] == Str(Source(a.url, rel))
      && p["previewWidth"] == Num(a.width)
      && p["previewHeight"] == Num(a.height)
      && p["previewOrientation"] == Str(OrientationName(OrientationOf(a.width, a.height)))
  {
    hide Source, OrientationName, OrientationOf;
  }

  lemma ShowsAssetProject(base: map<string, Value>, a: Asset, rel: bool)
    ensures ShowsAsset(base + Project(a, rel, PlainKeys), a, rel)
  {
    PlainProjection(a, rel);
    hide Project, Source, OrientationName, OrientationOf;
  }

  lemma ShowsPreviewProject(base: map<string, Value>, a: Asset, rel: bool)
    ensures ShowsPreview(base + Project(a, rel, PreviewKeys), a, rel)
  {
    PreviewProjection(a, rel);
    hide Project, Source, OrientationName, OrientationOf;
  }

  lemma ShowsPreviewKept(v: map<string, Value>, extra: map<string, Value>, a: Asset, rel: bool)
    requires ShowsPreview(v, a, rel) && extra.Keys !! PreviewAssetKeys
    ensures ShowsPreview(v + extra, a, rel)
  {
    hide Source, OrientationName, OrientationOf;
  }

  /** The projections' names: apart from each other and from the names
      the common values and the frame add. */
  lemma ProjectionNames(a: Asset, rel: bool)
    ensures Project(a, rel, PlainKeys).Keys == AssetKeys
    ensures Project(a, rel, PreviewKeys).Keys == PreviewAssetKeys
  {
    PlainProjection(a, rel);
    PreviewProjection(a, rel);
  }

  lemma NamesApart()
    ensures AssetKeys !! PreviewAssetKeys
    ensures "model" !in AssetKeys && "type" !in AssetKeys
    ensures "model" !in PreviewAssetKeys && "type" !in PreviewAssetKeys && "carousel" !in PreviewAssetKeys
  {
  }

  lemma KeepsCommonKept(v: map<string, Value>, common: map<string, Value>, extra: map<string, Value>)
    requires KeepsCommon(v, common) && "model" !in extra && "type" !in extra
    ensures KeepsCommon(v + extra, common)
  {
  }

  lemma ImageKeys(common: map<string, Value>, preview: Asset, rel: bool)
    requires common.Keys == CommonKeys
    ensures ImageValues(common, preview, rel).Keys == CommonKeys + AssetKeys
  {
    ProjectionNames(preview, rel);
    hide Project, Source, OrientationName, OrientationOf;
  }

  lemma ImageKeeps(common: map<string, Value>, preview: Asset, rel: bool)
    requires common.Keys == CommonKeys
    ensures KeepsCommon(ImageValues(common, preview, rel), common)
    ensures ShowsAsset(ImageValues(common, preview, rel), preview, rel)
  {
    ProjectionNames(preview, rel);
    NamesApart();
    hide Project, Source, OrientationName, OrientationOf;
    KeepsCommonKept(common, common, Project(preview, rel, PlainKeys));
    ShowsAssetProject(common, preview, rel);
  }

  /** The image template's values: the fourteen common ones and the preview
      under the plain names. */
  lemma ImageValuesSpec(common: map<string, Value>, preview: Asset, rel: bool)
    requires common.Keys == CommonKeys
    ensures ImageValues(common, preview, rel).Keys == CommonKeys + AssetKeys
    ensures KeepsCommon(ImageValues(common, preview, rel), common)
    ensures ShowsAsset(ImageValues(common, preview, rel), preview, rel)
  {
    hide *;
    ImageKeys(common, preview, rel);
    ImageKeeps(common, preview, rel);
  }

  lemma VideoKeys(common: map<string, Value>, preview: Asset, video: Asset, rel: bool)
    requires common.Keys == CommonKeys
    ensures VideoValues(common, preview, video, rel).Keys == CommonKeys + PreviewAssetKeys + AssetKeys
  {
    ProjectionNames(preview, rel);
    ProjectionNames(video, rel);
    hide Project, Source, OrientationName, OrientationOf;
  }

  lemma VideoKeeps(common: map<string, Value>, preview: Asset, video: Asset, rel: bool)
    requires common.Keys == CommonKeys
    ensures KeepsCommon(VideoValues(common, preview, video, rel), common)
  {
    ProjectionNames(preview, rel);
    ProjectionNames(video, rel);
    NamesApart();
    hide Project, Source, OrientationName, OrientationOf;
    KeepsCommonKept(common, common, Project(preview, rel, PreviewKeys));
    KeepsCommonKept(common + Project(preview, rel, PreviewKeys), common, Project(video, rel, PlainKeys));
  }

  lemma VideoShows(common: map<string, Value>, preview: Asset, video: Asset, rel: bool)
    ensures ShowsPreview(VideoValues(common, preview, video, rel), preview, rel)
    ensures ShowsAsset(VideoValues(common, preview, video, rel), video, rel)
  {
    ProjectionNames(video, rel);
    NamesApart();
    hide Project, Source, OrientationName, OrientationOf;
    var v := common + Project(preview, rel, PreviewKeys);
    ShowsPreviewProject(common, preview, rel);
    ShowsPreviewKept(v, Project(video, rel, PlainKeys), preview, rel);
    ShowsAssetProject(v, video, rel);
  }

  /** The video template's values: the common ones, the preview under the
      `preview` names and the video under the plain names. */
  lemma VideoValuesSpec(common: map<string, Value>, preview: Asset, video: Asset, rel: bool)
    requires common.Keys == CommonKeys
    ensures VideoValues(common, preview, video, rel).Keys == CommonKeys + PreviewAssetKeys + AssetKeys
    ensures KeepsCommon(VideoValues(common, preview, video, rel), common)
    ensures ShowsPreview(VideoValues(common, preview, video, rel), preview, rel)
    ensures ShowsAsset(VideoValues(common, preview, video, rel), video, rel)
  {
    hide *;
    VideoKeys(common, preview, video, rel);
    VideoKeeps(common, preview, video, rel);
    VideoShows(common, preview, video, rel);
  }

  lemma FrameKeys(common: map<string, Value>, preview: Asset, inner: string, rel: bool)
    requires common.Keys == CommonKeys
    ensures FrameValues(common, preview, inner, rel).Keys == CommonKeys + PreviewAssetKeys + {"carousel"}
  {
    ProjectionNames(preview, rel);
    hide Project, Source, OrientationName, OrientationOf;
  }

  lemma FrameKeeps(common: map<string, Value>, preview: Asset, inner: string, rel: bool)
    requires common.Keys == CommonKeys
    ensures KeepsCommon(FrameValues(common, preview, inner, rel), common)
  {
    ProjectionNames(preview, rel);
    NamesApart();
    hide Project, Source, OrientationName, OrientationOf;
    KeepsCommonKept(common, common, Project(preview, rel, PreviewKeys));
    KeepsCommonKept(common + Project(preview, rel, PreviewKeys), common, map["carousel" := Str(inner)]);
  }

  lemma FrameShows(common: map<string, Value>, preview: Asset, inner: string, rel: bool)
    ensures ShowsPreview(FrameValues(common, preview, inner, rel), preview, rel)
    ensures FrameValues(common, preview, inner, rel)["carousel"] == Str(inner)
  {
    NamesApart();
    hide Project, Source, OrientationName, OrientationOf;
    var v := common + Project(preview, rel, PreviewKeys);
    ShowsPreviewProject(common, preview, rel);
    ShowsPreviewKept(v, map["carousel" := Str(inner)], preview, rel);
  }

  /** The carousel frame's values: the common ones, the preview under the
      `preview` names and the sub-items' markup as `carousel`. */
  lemma FrameValuesSpec(common: map<string, Value>, preview: Asset, inner: string, rel: bool)
    requires common.Keys == CommonKeys
    ensures FrameValues(common, preview, inner, rel).Keys == CommonKeys + PreviewAssetKeys + {"carousel"}
    ensures KeepsCommon(FrameValues(common, preview, inner, rel), common)
    ensures ShowsPreview(FrameValues(common, preview, inner, rel), preview, rel)
    ensures FrameValues(common, preview, inner, rel)["carousel"] == Str(inner)
  {
    hide *;
    FrameKeys(common, preview, inner, rel);
    FrameKeeps(common, preview, inner, rel);
    FrameShows(common, preview, inner, rel);
  }

  /** A carousel sub-item's values: its type and the asset under the plain names. */
  lemma MediaValuesSpec(kind: string, a: Asset, rel: bool)
    ensures MediaValues(kind, a, rel).Keys == {"type"} + AssetKeys
    ensures MediaValues(kind, a, rel)["type"] == Str(kind)
    ensures ShowsAsset(MediaValues(kind, a, rel), a, rel)
  {
    ProjectionNames(a, rel);
    NamesApart();
    hide Project, Source, OrientationName, OrientationOf;
    ShowsAssetProject(map["type" := Str(kind)], a, rel);
  }

  // ---------------------------------------------------------------------
  // Rendering one item

  /** One `parseTemplate` call; its failures are a path through a
      primitive and running out of steps. */
  function Fill(t: string, values: map<string, Value>, fuel: nat): (r: Result<string, Fault>)
    ensures r.Err? ==> r.error == HostTypeError || r.error == OutOfFuel
    ensures NoPlaceholder(t) ==> r == Ok(t)
  {
    Render(t, Obj(values), fuel)
  }

  /** A template together with the values it is rendered with. */
  datatype Job = Job(template: string, values: map<string, Value>)

  /** `Fill` a job, or contribute nothing when there is none. */
  function Run(job: Option<Job>, fuel: nat): Result<string, Fault> {
    match job
    case None => Ok("")
    case Some(j) => Fill(j.template, j.values, fuel)
  }

  /** A carousel sub-item's job. The guards test the parent's `images` and
      `videos` while the reads go to the sub-item's own, so a missing
      `media.images` or `media.videos` is a TypeError and a video sub-item
      is refused when the parent has no `videos`. A sub-item of another
      type has no job. */
  function MediaJob(cfg: RenderConfig, d: Value, m: Value): (r: Result<Option<Job>, Fault>)
    ensures m.Null? ==> r == Err(HostTypeError)
    ensures !m.Null? && !IsString(Field(m, "type")) ==> r == Err(Invalid)
    ensures r == Ok(None) <==>
      IsString(Field(m, "type")) && Field(m, "type").value.s !in {"image", "video"}
    ensures r.Err? ==> r.error in {HostTypeError, Invalid}
    ensures r.Ok? && r.value.Some? ==>
      r.value.value.template in {cfg.carouselImageTemplate, cfg.carouselVideoTemplate}
  {
    if m.Null? then Err(HostTypeError)
    else if !IsString(Field(m, "type")) then Err(Invalid)
    else
      var kind := Field(m, "type").value.s;
      if kind == "image" then
        if !Truthy(Field(d, "images")) then Err(Invalid)
        else
          var entry :- Get(Field(m, "images"), cfg.imageResolution);
          var image :- ReadAsset(entry);
          Ok(Some(Job(cfg.carouselImageTemplate, MediaValues(kind, image, cfg.relativeScheme))))
      else if kind == "video" then
        if !Truthy(Field(d, "videos")) then Err(Invalid)
        else
          var entry :- Get(Field(m, "videos"), cfg.videoResolution);
          var video :- ReadAsset(entry);
          Ok(Some(Job(cfg.carouselVideoTemplate, MediaValues(kind, video, cfg.relativeScheme))))
      else Ok(None)
  }

  function RenderMedia(cfg: RenderConfig, d: Value, m: Value, fuel: nat): Result<string, Fault> {
    var job :- MediaJob(cfg, d, m);
    Run(job, fuel)
  }

  /** `templateValues.carousel`: the sub-items rendered in order and
      concatenated; the first failing sub-item ends the page. */
  function RenderCarousel(cfg: RenderConfig, d: Value, media: seq<Value>, fuel: nat): Result<string, Fault> {
    ConcatAll(media, m => RenderMedia(cfg, d, m, fuel))
  }

  /** The job of one item. The preview is checked for every type, before
      the type is looked at; a carousel's sub-items are rendered first. An
      item of another type has no job. */
  function ItemJob(cfg: RenderConfig, d: Value, fuel: nat): (r: Result<Option<Job>, Fault>)
    ensures d.Null? ==> r == Err(HostTypeError)
    ensures r.Ok? ==> HasRequiredFields(d)
    ensures r.Ok? && r.value.Some? ==>
      r.value.value.template in {cfg.imageTemplate, cfg.videoTemplate, cfg.carouselFrameTemplate}
  {
    var common :- CommonValues(d);
    var preview :- ReadAsset(Prop(Field(d, "images"), cfg.imageResolution));
    var kind := Field(d, "type").value.s;
    var rel := cfg.relativeScheme;
    if kind == "image" then
      Ok(Some(Job(cfg.imageTemplate, ImageValues(common, preview, rel))))
    else if kind == "video" then
      var videos := Field(d, "videos");
      if !Truthy(videos) then Err(Invalid)
      else
        var video :- ReadAsset(Prop(videos, cfg.videoResolution));
        Ok(Some(Job(cfg.videoTemplate, VideoValues(common, preview, video, rel))))
    else if kind == "carousel" then
      var media := Field(d, "carousel_media");
      if !Truthy(media) then Err(Invalid)
      else if !media.value.Arr? then Err(HostTypeError)
      else
        var inner :- RenderCarousel(cfg, d, media.value.items, fuel);
        Ok(Some(Job(cfg.carouselFrameTemplate, FrameValues(common, preview, inner, rel))))
    else Ok(None)
  }

  /** The markup one item contributes, or why the page fails: an item
      fails only in the ways its checks and templates can, and an item of
      an unknown type contributes nothing. */
  function RenderItem(cfg: RenderConfig, d: Value, fuel: nat): (r: Result<string, Fault>)
    ensures r.Err? ==> r.error in {HostTypeError, Invalid, OutOfFuel}
    ensures ItemJob(cfg, d, fuel) == Ok(None) ==> r == Ok("")
    ensures d.Null? ==> r == Err(HostTypeError)
    ensures !d.Null? && !HasRequiredFields(d) ==> r == Err(Invalid)
  {
    ItemJobFaults(cfg, d, fuel);
    var job :- ItemJob(cfg, d, fuel);
    Run(job, fuel)
  }

  /** `div.innerHTML` after the per-item loop: a page renders exactly when
      every item does, and then it is the items' markup in order; otherwise
      it fails with the first failing item's error. */
  function RenderAll(cfg: RenderConfig, items: seq<Value>, fuel: nat): (r: Result<string, Fault>)
    ensures r.Ok? <==> forall i | 0 <= i < |items| :: RenderItem(cfg, items[i], fuel).Ok?
    ensures r.Err? ==>
      exists k | 0 <= k < |items| ::
        && RenderItem(cfg, items[k], fuel) == Err(r.error)
        && forall i | 0 <= i < k :: RenderItem(cfg, items[i], fuel).Ok?
    ensures r.Err? ==> r.error in {HostTypeError, Invalid, OutOfFuel}
  {
    var f := d => RenderItem(cfg, d, fuel);
    ConcatAllSpec(items, f);
    ConcatAll(items, f)
  }

  // ---------------------------------------------------------------------
  // Fail-fast concatenation

  /** Each element's markup in order, stopping at the first failure. */
  function ConcatAll<T>(xs: seq<T>, f: T -> Result<string, Fault>): Result<string, Fault> {
    if |xs| == 0 then Ok("")
    else
      var first :- f(xs[0]);
      var rest :- ConcatAll(xs[1..], f);
      Ok(first + rest)
  }

  /** The markup of elements that all render. */
  function Markup<T>(xs: seq<T>, f: T -> Result<string, Fault>): string
    requires forall i | 0 <= i < |xs| :: f(xs[i]).Ok?
  {
    if |xs| == 0 then "" else f(xs[0]).value + Markup(xs[1..], f)
  }

  /** The concatenation succeeds exactly when every element renders, and
      then it is the elements' markup in order; otherwise it fails with the
      error of the first element that fails. */
  lemma {:induction false} ConcatAllSpec<T>(xs: seq<T>, f: T -> Result<string, Fault>)
    ensures ConcatAll(xs, f).Ok? <==> forall i | 0 <= i < |xs| :: f(xs[i]).Ok?
    ensures ConcatAll(xs, f).Ok? ==> ConcatAll(xs, f).value == Markup(xs, f)
    ensures ConcatAll(xs, f).Err? ==>
      exists k | 0 <= k < |xs| ::
        && f(xs[k]) == Err(ConcatAll(xs, f).error)
        && forall i | 0 <= i < k :: f(xs[i]).Ok?
  {
    if |xs| > 0 {
      ConcatAllSpec(xs[1..], f);
      assert forall i | 1 <= i < |xs| :: xs[i] == xs[1..][i - 1];
      if f(xs[0]).Ok? && ConcatAll(xs[1..], f).Err? {
        var k :| 0 <= k < |xs[1..]| && f(xs[1..][k]) == Err(ConcatAll(xs[1..], f).error)
          && forall i | 0 <= i < k :: f(xs[1..][i]).Ok?;
        assert f(xs[k + 1]) == Err(ConcatAll(xs, f).error);
      }
    }
  }

  /** Concatenating two lists of elements concatenates their markup. */
  lemma {:induction false} ConcatAllAppend<T>(xs: seq<T>, ys: seq<T>, f: T -> Result<string, Fault>)
    ensures ConcatAll(xs + ys, f) ==
      match ConcatAll(xs, f)
      case Err(e) => Err(e)
      case Ok(a) => PrefixWith(a, ConcatAll(ys, f))
  {
    if |xs| == 0 {
      assert xs + ys == ys;
      match ConcatAll(ys, f)
      case Ok(b) => assert "" + b == b;
      case Err(_) =>
    } else {
      assert (xs + ys)[1..] == xs[1..] + ys;
      assert (xs + ys)[0] == xs[0];
      ConcatAllAppend(xs[1..], ys, f);
      match f(xs[0])
      case Err(_) =>
      case Ok(a0) =>
        match ConcatAll(xs[1..], f)
        case Err(_) =>
        case Ok(a1) =>
          match ConcatAll(ys, f)
          case Err(_) =>
          case Ok(b) => assert a0 + (a1 + b) == (a0 + a1) + b;
    }
  }

  // ---------------------------------------------------------------------
  // What an item renders

  /** A null item is a TypeError and a missing required field the generic
      error; an item renders only with a valid preview, has no job exactly
      when its type is none of the three, and fails only in the ways a
      template or a field check can. */
  lemma ItemJobFaults(cfg: RenderConfig, d: Value, fuel: nat)
    ensures d.Null? ==> ItemJob(cfg, d, fuel) == Err(HostTypeError)
    ensures !d.Null? && !HasRequiredFields(d) ==> ItemJob(cfg, d, fuel) == Err(Invalid)
    ensures ItemJob(cfg, d, fuel).Ok? ==>
      HasRequiredFields(d) && ReadAsset(Prop(Field(d, "images"), cfg.imageResolution)).Ok?
    ensures ItemJob(cfg, d, fuel) == Ok(None) <==>
      && !d.Null? && HasRequiredFields(d)
      && ReadAsset(Prop(Field(d, "images"), cfg.imageResolution)).Ok?
      && Field(d, "type").value.s !in {"image", "video", "carousel"}
    ensures ItemJob(cfg, d, fuel).Err? ==>
      ItemJob(cfg, d, fuel).error in {HostTypeError, Invalid, OutOfFuel}
  {
    hide RenderCarousel, CommonValues, ReadAsset, Project, HasRequiredFields;
    var media := Field(d, "carousel_media");
    if media.Some? && media.value.Arr? {
      MediaFaults(cfg, d, media.value.items, fuel);
    }
  }

  /** Running a job fails only in the ways a template can. */
  lemma RunFaults(job: Option<Job>, fuel: nat)
    ensures Run(job, fuel).Err? ==> Run(job, fuel).error in {HostTypeError, OutOfFuel}
  {
  }

  /** Every way a carousel's sub-items can fail is one an item can fail in. */
  lemma MediaFaults(cfg: RenderConfig, d: Value, media: seq<Value>, fuel: nat)
    ensures RenderCarousel(cfg, d, media, fuel).Err? ==>
      RenderCarousel(cfg, d, media, fuel).error in {HostTypeError, Invalid, OutOfFuel}
  {
    var f := m => RenderMedia(cfg, d, m, fuel);
    ConcatAllSpec(media, f);
    if ConcatAll(media, f).Err? {
      var k :| 0 <= k < |media| && f(media[k]) == Err(ConcatAll(media, f).error);
      hide MediaJob, Run;
      if MediaJob(cfg, d, media[k]).Ok? {
        RunFaults(MediaJob(cfg, d, media[k]).value, fuel);
      }
    }
  }

  /** The type of an item that passed the field check. */
  function Kind(d: Value): string {
    if IsString(Field(d, "type")) then Field(d, "type").value.s else ""
  }

  /** An image item's template sees the common values and the preview
      under the plain names. */
  lemma ImageJob(cfg: RenderConfig, d: Value, fuel: nat, j: Job)
    requires ItemJob(cfg, d, fuel) == Ok(Some(j)) && Kind(d) == "image"
    ensures j.template == cfg.imageTemplate
    ensures j.values.Keys == CommonKeys + AssetKeys
    ensures j.values["model"] == d && j.values["type"] == Str("image")
    ensures var preview := ReadAsset(Prop(Field(d, "images"), cfg.imageResolution));
      preview.Ok? && ShowsAsset(j.values, preview.value, cfg.relativeScheme)
  {
    hide RenderCarousel, ReadAsset, ImageValues, HasRequiredFields, CommonMap;
    CommonMapKeys(d);
    ImageValuesSpec(CommonMap(d), ReadAsset(Prop(Field(d, "images"), cfg.imageResolution)).value, cfg.relativeScheme);
  }

  /** A video item's template sees the common values, the preview under the
      `preview` names and the video under the plain names. */
  lemma VideoJob(cfg: RenderConfig, d: Value, fuel: nat, j: Job)
    requires ItemJob(cfg, d, fuel) == Ok(Some(j)) && Kind(d) == "video"
    ensures j.template == cfg.videoTemplate
    ensures j.values.Keys == CommonKeys + PreviewAssetKeys + AssetKeys
    ensures j.values["model"] == d && j.values["type"] == Str("video")
    ensures var preview := ReadAsset(Prop(Field(d, "images"), cfg.imageResolution));
      preview.Ok? && ShowsPreview(j.values, preview.value, cfg.relativeScheme)
    ensures var video := ReadAsset(Prop(Field(d, "videos"), cfg.videoResolution));
      video.Ok? && ShowsAsset(j.values, video.value, cfg.relativeScheme)
  {
    hide RenderCarousel, ReadAsset, VideoValues, HasRequiredFields, CommonMap;
    CommonMapKeys(d);
    VideoValuesSpec(CommonMap(d), ReadAsset(Prop(Field(d, "images"), cfg.imageResolution)).value,
      ReadAsset(Prop(Field(d, "videos"), cfg.videoResolution)).value, cfg.relativeScheme);
  }

  /** A carousel item's template sees the common values, the preview under
      the `preview` names, and its sub-items' markup as `carousel`. */
  lemma CarouselJob(cfg: RenderConfig, d: Value, fuel: nat, j: Job)
    requires ItemJob(cfg, d, fuel) == Ok(Some(j)) && Kind(d) == "carousel"
    ensures j.template == cfg.carouselFrameTemplate
    ensures j.values.Keys == CommonKeys + PreviewAssetKeys + {"carousel"}
    ensures j.values["model"] == d && j.values["type"] == Str("carousel")
    ensures var preview := ReadAsset(Prop(Field(d, "images"), cfg.imageResolution));
      preview.Ok? && ShowsPreview(j.values, preview.value, cfg.relativeScheme)
    ensures exists media ::
      && Field(d, "carousel_media") == Some(Arr(media))
      && RenderCarousel(cfg, d, media, fuel) == Ok(j.values["carousel"].s)
  {
    hide RenderCarousel, ReadAsset, FrameValues, HasRequiredFields, CommonMap;
    CommonMapKeys(d);
    var media := Field(d, "carousel_media").value.items;
    var inner := RenderCarousel(cfg, d, media, fuel).value;
    FrameValuesSpec(CommonMap(d), ReadAsset(Prop(Field(d, "images"), cfg.imageResolution)).value,
      inner, cfg.relativeScheme);
    assert Field(d, "carousel_media") == Some(Arr(media));
  }

  // ---------------------------------------------------------------------
  // The carousel quirk, and whole pages

  /** A video sub-item is refused when the parent item has no `videos`,
      however complete the sub-item's own `videos` are. */
  lemma VideoMediaNeedsParentVideos(cfg: RenderConfig, d: Value, m: Value, fuel: nat)
    requires Field(m, "type") == Some(Str("video")) && !Truthy(Field(d, "videos"))
    ensures RenderMedia(cfg, d, m, fuel) == Err(Invalid)
  {
  }

  /** An image sub-item reads its own `images`, not the parent's: when the
      sub-item has none the read throws, even though the parent's are there. */
  lemma ImageMediaReadsOwnImages(cfg: RenderConfig, d: Value, m: Value, fuel: nat)
    requires Field(m, "type") == Some(Str("image")) && Truthy(Field(d, "images"))
    requires Field(m, "images") == None
    ensures RenderMedia(cfg, d, m, fuel) == Err(HostTypeError)
  {
  }

  /** An image or video sub-item renders its template with its type and its
      asset under the plain names. */
  lemma MediaJobShape(cfg: RenderConfig, d: Value, m: Value, j: Job)
    requires MediaJob(cfg, d, m) == Ok(Some(j))
    ensures Field(m, "type") == Some(Str("image")) || Field(m, "type") == Some(Str("video"))
    ensures j.values.Keys == {"type"} + AssetKeys && Some(j.values["type"]) == Field(m, "type")
    ensures Field(m, "type") == Some(Str("image")) ==>
      && Truthy(Field(d, "images"))
      && j.template == cfg.carouselImageTemplate
      && exists entry :: Get(Field(m, "images"), cfg.imageResolution) == Ok(entry)
           && ReadAsset(entry).Ok? && ShowsAsset(j.values, ReadAsset(entry).value, cfg.relativeScheme)
    ensures Field(m, "type") == Some(Str("video")) ==>
      && Truthy(Field(d, "videos"))
      && j.template == cfg.carouselVideoTemplate
      && exists entry :: Get(Field(m, "videos"), cfg.videoResolution) == Ok(entry)
           && ReadAsset(entry).Ok? && ShowsAsset(j.values, ReadAsset(entry).value, cfg.relativeScheme)
  {
    hide ReadAsset, MediaValues, Get;
    var kind := Field(m, "type").value.s;
    var names := if kind == "image" then "images" else "videos";
    var res := if kind == "image" then cfg.imageResolution else cfg.videoResolution;
    var entry := Get(Field(m, names), res).value;
    MediaValuesSpec(kind, ReadAsset(entry).value, cfg.relativeScheme);
  }

  // ---------------------------------------------------------------------
  // Items built from their fields

  /** A well-formed API item: its checked fields, its image resolutions, and
      whether `caption` and `location` are sent at all. */
  datatype Post = Post(c: Common, images: map<string, Value>, hasCaption: bool, hasLocation: bool)

  function UserObject(c: Common): Value {
    Obj(map["id" := Str(c.userId), "full_name" := Str(c.fullName),
            "profile_picture" := Str(c.picture), "username" := Str(c.username)])
  }

  /** `{k: {f: text}}` when the field is sent, `{}` otherwise. */
  function Optional(sent: bool, k: string, f: string, text: string): map<string, Value> {
    if sent then map[k := Obj(map[f := Str(text)])] else map[]
  }

  function TopFields(p: Post): map<string, Value> {
    map[
      "id" := Str(p.c.id), "type" := Str(p.c.kind), "images" := Obj(p.images),
      "user" := UserObject(p.c), "user_has_liked" := Bool(p.c.liked),
      "likes" := Obj(map["count" := Num(p.c.likes)]),
      "comments" := Obj(map["count" := Num(p.c.comments)]),
      "created_time" := Str(p.c.time), "link" := Str(p.c.link)]
  }

  /** The JSON object the API sends for a post. */
  function PostObject(p: Post): Value {
    Obj(TopFields(p)
      + Optional(p.hasCaption, "caption", "text", p.c.caption)
      + Optional(p.hasLocation, "location", "name", p.c.location))
  }

  const TopKeys: set<string> :=
    {"id", "type", "images", "user", "user_has_liked", "likes", "comments", "created_time", "link"}

  lemma TopFieldKeys(p: Post)
    ensures TopFields(p).Keys == TopKeys
  {
    hide UserObject;
  }

  /** A top-level field of the post object is the one the post puts there. */
  lemma TopRead(p: Post, k: string)
    requires k in TopKeys
    ensures Field(PostObject(p), k) == Some(TopFields(p)[k])
  {
    TopFieldKeys(p);
    assert k != "caption" && k != "location";
    var m := PostObject(p).fields;
    ObjProp(m, k);
    hide TopFields, UserObject;
  }

  lemma TopValuesA(p: Post)
    ensures TopFields(p)["id"] == Str(p.c.id)
    ensures TopFields(p)["type"] == Str(p.c.kind)
    ensures TopFields(p)["images"] == Obj(p.images)
    ensures TopFields(p)["user"] == UserObject(p.c)
  {
    hide UserObject;
  }

  lemma TopValuesB(p: Post)
    ensures TopFields(p)["user_has_liked"] == Bool(p.c.liked)
    ensures TopFields(p)["likes"] == Obj(map["count" := Num(p.c.likes)])
    ensures TopFields(p)["comments"] == Obj(map["count" := Num(p.c.comments)])
    ensures TopFields(p)["created_time"] == Str(p.c.time)
    ensures TopFields(p)["link"] == Str(p.c.link)
  {
    hide UserObject;
  }

  lemma UserReads(c: Common)
    ensures UserObject(c).Obj?
    ensures Prop(Some(UserObject(c)), "id") == Some(Str(c.userId))
    ensures Prop(Some(UserObject(c)), "full_name") == Some(Str(c.fullName))
    ensures Prop(Some(UserObject(c)), "profile_picture") == Some(Str(c.picture))
    ensures Prop(Some(UserObject(c)), "username") == Some(Str(c.username))
  {
    var m := UserObject(c).fields;
    ObjProp(m, "id");
    ObjProp(m, "full_name");
    ObjProp(m, "profile_picture");
    ObjProp(m, "username");
    hide Prop;
  }

  lemma CountRead(n: int)
    ensures Prop(Some(Obj(map["count" := Num(n)])), "count") == Some(Num(n))
  {
    ObjProp(map["count" := Num(n)], "count");
  }

  /** An optional field is there exactly when it is sent. */
  lemma CaptionField(p: Post)
    ensures Field(PostObject(p), "caption") ==
      if p.hasCaption then Some(Obj(map["text" := Str(p.c.caption)])) else None
  {
    TopFieldKeys(p);
    var m := PostObject(p).fields;
    assert "caption" !in TopKeys;
    ObjProp(m, "caption");
    hide TopFields, UserObject, Prop, TextOr;
  }

  lemma LocationField(p: Post)
    ensures Field(PostObject(p), "location") ==
      if p.hasLocation then Some(Obj(map["name" := Str(p.c.location)])) else None
  {
    TopFieldKeys(p);
    var m := PostObject(p).fields;
    assert "location" !in TopKeys;
    ObjProp(m, "location");
    hide TopFields, UserObject, Prop, TextOr;
  }

  /** What an optional field reads as: the text when it is sent, `""` when not. */
  lemma TextOrSent(sent: bool, f: string, text: string)
    ensures TextOr(if sent then Some(Obj(map[f := Str(text)])) else None, f) == if sent then text else ""
  {
    ObjProp(map[f := Str(text)], f);
  }

  lemma PostReads(p: Post)
    ensures Field(PostObject(p), "id") == Some(Str(p.c.id))
    ensures Field(PostObject(p), "type") == Some(Str(p.c.kind))
    ensures Field(PostObject(p), "images") == Some(Obj(p.images))
    ensures Field(PostObject(p), "user") == Some(UserObject(p.c))
    ensures Field(PostObject(p), "user_has_liked") == Some(Bool(p.c.liked))
    ensures Field(PostObject(p), "likes") == Some(Obj(map["count" := Num(p.c.likes)]))
    ensures Field(PostObject(p), "comments") == Some(Obj(map["count" := Num(p.c.comments)]))
    ensures Field(PostObject(p), "created_time") == Some(Str(p.c.time))
    ensures Field(PostObject(p), "link") == Some(Str(p.c.link))
  {
    TopValuesA(p);
    TopValuesB(p);
    TopRead(p, "id");
    TopRead(p, "type");
    TopRead(p, "images");
    TopRead(p, "user");
    TopRead(p, "user_has_liked");
    TopRead(p, "likes");
    TopRead(p, "comments");
    TopRead(p, "created_time");
    TopRead(p, "link");
    hide *;
  }

  /** The post object passes the field check whatever its fields hold. */
  lemma PostPasses(p: Post)
    ensures HasRequiredFields(PostObject(p))
  {
    PostReads(p);
    UserReads(p.c);
    CountRead(p.c.likes);
    CountRead(p.c.comments);
    hide Field, Prop, PostObject, UserObject;
  }

  /** The post's fields with the defaults the template values apply. */
  function Defaulted(p: Post): Common {
    p.c.(caption := if p.hasCaption then p.c.caption else "",
         location := if p.hasLocation then p.c.location else "")
  }

  /** Reading a post object gives back the post's fields, with `caption`
      and `location` empty when they are not sent; the template values are
      those fields and the object itself as `model`. */
  lemma PostRoundTrip(p: Post)
    ensures HasRequiredFields(PostObject(p)) && ReadCommon(PostObject(p)) == Defaulted(p)
    ensures CommonValues(PostObject(p)) == Ok(Shape(Defaulted(p), PostObject(p)))
  {
    PostPasses(p);
    PostReads(p);
    UserReads(p.c);
    CountRead(p.c.likes);
    CountRead(p.c.comments);
    CaptionField(p);
    LocationField(p);
    TextOrSent(p.hasCaption, "text", p.c.caption);
    TextOrSent(p.hasLocation, "name", p.c.location);
    assert PostObject(p).Obj?;
    hide Field, Prop, PostObject, UserObject, TextOr, HasRequiredFields, Shape;
  }

  /** Dropping any required top-level field from a post object gets the
      item rejected with the generic error. */
  lemma MissingFieldRejected(p: Post, k: string)
    requires k in TopKeys
    ensures CommonValues(Obj(PostObject(p).fields - {k})) == Err(Invalid)
  {
    var d := Obj(PostObject(p).fields - {k});
    ObjProp(PostObject(p).fields - {k}, k);
    assert Field(d, k) == None;
    hide PostObject, Prop;
  }
}

=== FILE: js_value.dfy ===
/** JSON-shaped values as the feed code receives them, and the few
    JavaScript primitives it applies to them: truthiness, `typeof`,
    property reads, the `in` operator and conversion to a string. */
module Js {
  import opened Wrappers

  /** A parsed JSON value. Numbers are integers (see README). */
  datatype Value =
    | Null
    | Bool(b: bool)
    | Num(n: int)
    | Str(s: string)
    | Arr(items: seq<Value>)
    | Obj(fields: map<string, Value>)

  /** The result of a property read: `None` is `undefined`. */
  type Slot = Option<Value>

  /** Why a step of the transform stopped. */
  datatype Fault =
    | Invalid        // `throw new Error()`: reported with the generic parse message
    | HostTypeError  // a TypeError raised by the engine itself (message engine-defined)
    | NoTarget       // the target element is missing from the document
    | OutOfFuel      // template expansion did not finish within the step budget
    | Loops          // the source code never returns

  // ---------------------------------------------------------------------
  // Decimal digits

  predicate IsDigit(c: char) {
    '0' <= c <= '9'
  }

  predicate AllDigits(s: string) {
    forall i :: 0 <= i < |s| ==> IsDigit(s[i])
  }

  function DigitChar(d: nat): (c: char)
    requires d < 10
    ensures IsDigit(c) && c as int - '0' as int == d
  {
    ('0' as int + d) as char
  }

  /** The decimal spelling of `n`. `Number.prototype.toString` spells an
      integer this way below 10^21; from there on it switches to exponent
      form, which this spelling does not follow (see README). */
  function NatToString(n: nat): (s: string)
    ensures |s| > 0 && AllDigits(s)
    ensures (s[0] == '0') == (n == 0)
    ensures n == 0 ==> s == "0"
  {
    if n < 10 then [DigitChar(n)] else NatToString(n / 10) + [DigitChar(n % 10)]
  }

  /** The decimal spelling of an integer: a minus sign, then the digits of
      its magnitude. */
  function IntToString(i: int): (s: string)
    ensures |s| > 0 && (s[0] == '-' <==> i < 0)
    ensures i >= 0 ==> ParseIndex(s) == Some(i)
    ensures i < 0 ==> ParseIndex(s[1..]) == Some(-i)
  {
    if i < 0 then
      IndexRoundTrip(-i);
      assert ("-" + NatToString(-i))[1..] == NatToString(-i);
      "-" + NatToString(-i)
    else
      IndexRoundTrip(i);
      NatToString(i)
  }

  /** The number a string of decimal digits denotes. */
  function DigitsValue(s: string): nat
    requires AllDigits(s)
  {
    if |s| == 0 then 0
    else DigitsValue(s[..|s| - 1]) * 10 + (s[|s| - 1] as int - '0' as int)
  }

  /** Whether `s` is an array-index property name (a canonical decimal
      numeral), and which index it names. */
  function ParseIndex(s: string): Option<nat> {
    if |s| > 0 && AllDigits(s) && (s[0] != '0' || |s| == 1) then Some(DigitsValue(s))
    else None
  }

  lemma {:induction false} DigitsOfNatToString(n: nat)
    ensures DigitsValue(NatToString(n)) == n
  {
    if n >= 10 {
      var s := NatToString(n / 10);
      DigitsOfNatToString(n / 10);
      assert (s + [DigitChar(n % 10)])[..|s|] == s;
    }
  }

  lemma {:induction false} PositiveDigits(s: string)
    requires |s| > 0 && AllDigits(s) && s[0] != '0'
    ensures DigitsValue(s) > 0
  {
    if |s| > 1 {
      PositiveDigits(s[..|s| - 1]);
    }
  }

  /** Index names and `NatToString` are inverse bijections. */
  lemma {:induction false} IndexRoundTrip(n: nat)
    ensures ParseIndex(NatToString(n)) == Some(n)
  {
    DigitsOfNatToString(n);
  }

  lemma {:induction false} IndexCanonical(s: string)
    requires ParseIndex(s).Some?
    ensures NatToString(ParseIndex(s).value) == s
  {
    var n := DigitsValue(s);
    if |s| > 1 {
      var p := s[..|s| - 1];
      var d := s[|s| - 1] as int - '0' as int;
      PositiveDigits(p);
      assert ParseIndex(p) == Some(DigitsValue(p));
      IndexCanonical(p);
      assert n / 10 == DigitsValue(p) && n % 10 == d;
      assert s == p + [s[|s| - 1]];
    } else {
      assert DigitsValue(s[..0]) == 0;
      assert [DigitChar(n)] == s;
    }
  }

  // ---------------------------------------------------------------------
  // Truthiness and `typeof`

  /** JavaScript truthiness of a slot (`undefined` is falsy). */
  predicate Truthy(o: Slot)
    ensures Truthy(o) ==> !Nullish(o)
    ensures o.Some? && (o.value.Arr? || o.value.Obj?) ==> Truthy(o)
    ensures o.Some? && o.value.Str? ==> (Truthy(o) <==> |o.value.s| > 0)
  {
    match o
    case None => false
    case Some(v) =>
      match v
      case Null => false
      case Bool(b) => b
      case Num(n) => n != 0
      case Str(s) => s != ""
      case _ => true
  }

  /** `o == null`: null or undefined. */
  predicate Nullish(o: Slot) {
    o.None? || o.value.Null?
  }

  predicate IsString(o: Slot) {
    o.Some? && o.value.Str?
  }

  predicate IsNumber(o: Slot) {
    o.Some? && o.value.Num?
  }

  predicate IsBoolean(o: Slot) {
    o.Some? && o.value.Bool?
  }

  // ---------------------------------------------------------------------
  // Properties of objects and arrays

  /** `key in v` for an object or an array (own properties only). An
      array has `length` and the decimal names of its indices. */
  predicate HasKey(v: Value, key: string)
    requires v.Arr? || v.Obj?
    ensures v.Obj? ==> (HasKey(v, key) <==> key in v.fields)
    ensures v.Arr? ==> (HasKey(v, key) <==>
      key == "length" || exists n: nat | n < |v.items| :: key == NatToString(n))
  {
    match v
    case Arr(items) =>
      IndexNames(key, |items|);
      key == "length" || (ParseIndex(key).Some? && ParseIndex(key).value < |items|)
    case Obj(m) => key in m
  }

  /** A name denotes an index below `len` exactly when it is the decimal
      spelling of one. */
  lemma IndexNames(key: string, len: nat)
    ensures (ParseIndex(key).Some? && ParseIndex(key).value < len) <==>
      exists n: nat | n < len :: key == NatToString(n)
  {
    if ParseIndex(key).Some? && ParseIndex(key).value < len {
      IndexCanonical(key);
    }
    forall n: nat | n < len && key == NatToString(n)
      ensures ParseIndex(key) == Some(n)
    {
      IndexRoundTrip(n);
    }
  }

  /** `v[key]` for a key `v` has. */
  function Member(v: Value, key: string): Value
    requires v.Arr? || v.Obj?
    requires HasKey(v, key)
  {
    match v
    case Arr(items) =>
      if key == "length" then Num(|items|) else items[ParseIndex(key).value]
    case Obj(m) => m[key]
  }

  /** `o[key]` where the caller has excluded null and undefined, or
      `undefined` when it has not (the throwing read is `Get`). */
  function Prop(o: Slot, key: string): (r: Slot)
    ensures Nullish(o) ==> r.None?
    ensures o.Some? && (o.value.Bool? || o.value.Num?) ==> r.None?
    ensures o.Some? && (o.value.Arr? || o.value.Obj?) ==> (r.Some? <==> HasKey(o.value, key))
    ensures o.Some? && (o.value.Arr? || o.value.Str?) && key == "length" ==>
      r == Some(Num(if o.value.Arr? then |o.value.items| else |o.value.s|))
    ensures o.Some? && o.value.Arr? && r.Some? && key != "length" ==> r.value in o.value.items
  {
    match o
    case None => None
    case Some(v) =>
      match v
      case Str(s) =>
        if key == "length" then Some(Num(|s|))
        else if ParseIndex(key).Some? && ParseIndex(key).value < |s| then Some(Str([s[ParseIndex(key).value]]))
        else None
      case Arr(_) => if HasKey(v, key) then Some(Member(v, key)) else None
      case Obj(_) => if HasKey(v, key) then Some(Member(v, key)) else None
      case _ => None
  }

  /** An object's property is its field, or `undefined` when it has none. */
  lemma ObjProp(m: map<string, Value>, key: string)
    ensures Prop(Some(Obj(m)), key) == if key in m then Some(m[key]) else None
  {
  }

  /** `o[key]` as the engine evaluates it: a TypeError on null or undefined. */
  function Get(o: Slot, key: string): (r: Result<Slot, Fault>)
    ensures r.Err? <==> Nullish(o)
    ensures r.Ok? ==> r.value == Prop(o, key)
  {
    if Nullish(o) then Err(HostTypeError) else Ok(Prop(o, key))
  }

  // ---------------------------------------------------------------------
  // Conversion to a string

  /** `Array.prototype.join` with the default separator. */
  function Join(parts: seq<string>): string {
    if |parts| == 0 then ""
    else if |parts| == 1 then parts[0]
    else parts[0] + "," + Join(parts[1..])
  }

  /** `String(v)`: what string concatenation makes of a value. */
  function ToStr(v: Value): (r: string)
    ensures v.Str? ==> r == v.s
    ensures v.Bool? ==> (r == "true" <==> v.b) && (r == "false" <==> !v.b)
    ensures v.Num? ==> r == IntToString(v.n)
    ensures v.Arr? && |v.items| == 0 ==> r == ""
    ensures v.Arr? && |v.items| == 1 && !v.items[0].Null? ==> r == ToStr(v.items[0])
  {
    match v
    case Null => "null"
    case Bool(b) => if b then "true" else "false"
    case Num(n) => IntToString(n)
    case Str(s) => s
    case Arr(items) =>
      Join(seq(|items|, i requires 0 <= i < |items| => if items[i].Null? then "" else ToStr(items[i])))
    case Obj(_) => "[object Object]"
  }
}

=== FILE: options.dfy ===
/** The `Instafeed` constructor (lib/instafeed.js): validation of the
    options object, defaults for what it leaves out, and the request URL. */
module Options {
  import opened Wrappers
  import opened Js
  import opened Ordering
  import opened ItemRenderer

  // ---------------------------------------------------------------------
  // Sort orders

  /** The orders the `sort` pattern admits. */
  datatype Order = Unsorted | Shuffled | Most(metric: Metric) | Least(metric: Metric)

  function MetricName(m: Metric): string {
    match m
    case Recent => "recent"
    case Liked => "liked"
    case Commented => "commented"
  }

  /** The option string naming an order. */
  function OrderName(o: Order): string {
    match o
    case Unsorted => "none"
    case Shuffled => "random"
    case Most(m) => "most-" + MetricName(m)
    case Least(m) => "least-" + MetricName(m)
  }

  /** `/^(?:none|(?:most|least)-(?:recent|liked|commented)|random)$/` on a
      string, and the order it names. */
  function ParseOrder(s: string): (r: Option<Order>)
    ensures r.Some? ==> OrderName(r.value) == s
  {
    if s == "none" then Some(Unsorted)
    else if s == "random" then Some(Shuffled)
    else if s == "most-recent" then Some(Most(Recent))
    else if s == "most-liked" then Some(Most(Liked))
    else if s == "most-commented" then Some(Most(Commented))
    else if s == "least-recent" then Some(Least(Recent))
    else if s == "least-liked" then Some(Least(Liked))
    else if s == "least-commented" then Some(Least(Commented))
    else None
  }

  /** Every order's name passes the pattern and names that order again. */
  lemma OrderRoundTrip(o: Order)
    ensures ParseOrder(OrderName(o)) == Some(o)
  {
    match o
    case Unsorted =>
    case Shuffled =>
    case Most(m) => {
      match m
      case Recent => assert OrderName(o) == "most-recent";
      case Liked => assert OrderName(o) == "most-liked";
      case Commented => assert OrderName(o) == "most-commented";
    }
    case Least(m) => {
      match m
      case Recent => assert OrderName(o) == "least-recent";
      case Liked => assert OrderName(o) == "least-liked";
      case Commented => assert OrderName(o) == "least-commented";
    }
  }

  /** The accepted `sort` values. A non-string passes when its string form
      does (`RegExp.prototype.test` converts its argument), and is stored
      as it is. */
  datatype SortOption = Named(order: Order) | Coerced(value: Value)

  // ---------------------------------------------------------------------
  // Settings

  datatype Settings = Settings(
    url: string,
    sort: SortOption,
    render: RenderConfig,
    target: string,
    mock: bool)

  const Api := "https://api.instagram.com/v1/"
  const DefaultImageTemplate := "<img src=\"{{source}}\" width=\"{{width}}\" height=\"{{height}}\">"
  const DefaultPreviewTemplate := "<img src=\"{{previewSource}}\" width=\"{{previewWidth}}\" height=\"{{previewHeight}}\">"
  const ImageResolutions: set<string> := {"thumbnail", "low_resolution", "standard_resolution"}
  const VideoResolutions: set<string> := {"standard_resolution", "low_bandwidth", "low_resolution"}

  const MissingOptions := "InstafeedOptionsError: Missing options."

  function Invalid(name: string): string {
    "InstafeedOptionsError: Invalid option \"" + name + "\"."
  }

  function MissingOrInvalid(name: string): string {
    "InstafeedOptionsError: Missing or invalid option \"" + name + "\"."
  }

  /** `options[name]` on a truthy options value. */
  function Opt(o: Value, name: string): Slot {
    Prop(Some(o), name)
  }

  // ---------------------------------------------------------------------
  // One check per option

  /** The `switch(options.get)`: the feed's path under the API root. */
  function Endpoint(o: Value, encode: string -> string): (r: Result<string, string>)
    ensures r.Err? ==>
      r.error in {MissingOrInvalid("tagName"), MissingOrInvalid("locationId"), Invalid("get"), Invalid("userId")}
  {
    var get := Opt(o, "get");
    if get == Some(Str("tag")) then
      var tag := Opt(o, "tagName");
      if !IsString(tag) then Err(MissingOrInvalid("tagName"))
      else Ok("tags/" + encode(tag.value.s))
    else if get == Some(Str("location")) then
      var id := Opt(o, "locationId");
      if !IsNumber(id) then Err(MissingOrInvalid("locationId"))
      else Ok("locations/" + IntToString(id.value.n))
    else if get.Some? && get != Some(Str("user")) then Err(Invalid("get"))
    else
      var user := Opt(o, "userId");
      if user.None? then Ok("users/self")
      else if user.value.Num? then Ok("users/" + IntToString(user.value.n))
      else Err(Invalid("userId"))
  }

  /** Which feeds can be asked for: a tag by name, a location by number, or
      a user (the token's owner by default) by number; nothing else. */
  lemma EndpointSpec(o: Value, encode: string -> string)
    ensures var get := Opt(o, "get");
      Endpoint(o, encode).Ok? <==>
        || (get == Some(Str("tag")) && IsString(Opt(o, "tagName")))
        || (get == Some(Str("location")) && IsNumber(Opt(o, "locationId")))
        || ((get.None? || get == Some(Str("user"))) && (Opt(o, "userId").None? || IsNumber(Opt(o, "userId"))))
    ensures Opt(o, "get") == Some(Str("tag")) && IsString(Opt(o, "tagName")) ==>
      Endpoint(o, encode) == Ok("tags/" + encode(Opt(o, "tagName").value.s))
    ensures Opt(o, "get") == Some(Str("location")) && IsNumber(Opt(o, "locationId")) ==>
      Endpoint(o, encode) == Ok("locations/" + IntToString(Opt(o, "locationId").value.n))
    ensures (Opt(o, "get").None? || Opt(o, "get") == Some(Str("user"))) && Opt(o, "userId").None? ==>
      Endpoint(o, encode) == Ok("users/self")
  {
  }

  /** `&count=…` when `limit` is a non-zero number. */
  function CountParam(o: Value): (r: Result<string, string>)
    ensures r.Err? <==> Opt(o, "limit").Some? && !IsNumber(Opt(o, "limit"))
    ensures r.Err? ==> r.error == Invalid("limit")
    ensures r == Ok("") <==> Opt(o, "limit").None? || Opt(o, "limit") == Some(Num(0))
  {
    var limit := Opt(o, "limit");
    if limit.None? then Ok("")
    else if !limit.value.Num? then Err(Invalid("limit"))
    else if limit.value.n == 0 then Ok("")
    else Ok("&count=" + IntToString(limit.value.n))
  }

  function SortOpt(o: Value): (r: Result<SortOption, string>)
    ensures r.Err? <==> Opt(o, "sort").Some? && ParseOrder(ToStr(Opt(o, "sort").value)).None?
    ensures r.Err? ==> r.error == Invalid("sort")
    ensures r.Ok? && r.value.Named? && Opt(o, "sort").Some? ==> Opt(o, "sort") == Some(Str(OrderName(r.value.order)))
    ensures r.Ok? && r.value.Coerced? ==> Opt(o, "sort") == Some(r.value.value) && !r.value.value.Str?
  {
    var sort := Opt(o, "sort");
    if sort.None? then Ok(Named(Unsorted))
    else
      var order := ParseOrder(ToStr(sort.value));
      if order.None? then Err(Invalid("sort"))
      else if sort.value.Str? then Ok(Named(order.value))
      else Ok(Coerced(sort.value))
  }

  /** A string option with a default. */
  function TextOpt(o: Value, name: string, default: string): (r: Result<string, string>)
    ensures r.Err? <==> Opt(o, name).Some? && !IsString(Opt(o, name))
    ensures r.Err? ==> r.error == Invalid(name)
    ensures r.Ok? ==> if Opt(o, name).None? then r.value == default else Opt(o, name) == Some(Str(r.value))
  {
    var v := Opt(o, name);
    if v.None? then Ok(default)
    else if !v.value.Str? then Err(Invalid(name))
    else Ok(v.value.s)
  }

  /** A boolean option with a default. */
  function FlagOpt(o: Value, name: string, default: bool): (r: Result<bool, string>)
    ensures r.Err? <==> Opt(o, name).Some? && !IsBoolean(Opt(o, name))
    ensures r.Err? ==> r.error == Invalid(name)
    ensures r.Ok? ==> if Opt(o, name).None? then r.value == default else Opt(o, name) == Some(Bool(r.value))
  {
    var v := Opt(o, name);
    if v.None? then Ok(default)
    else if !v.value.Bool? then Err(Invalid(name))
    else Ok(v.value.b)
  }

  /** A resolution option checked against a pattern of alternatives. A
      non-string that passes is stored as it is; it is only ever used as a
      property name, so what counts is its string form. */
  function ChoiceOpt(o: Value, name: string, allowed: set<string>, default: string): (r: Result<string, string>)
    requires default in allowed
    ensures r.Err? <==> Opt(o, name).Some? && ToStr(Opt(o, name).value) !in allowed
    ensures r.Err? ==> r.error == Invalid(name)
    ensures r.Ok? ==> r.value in allowed
    ensures r.Ok? ==> if Opt(o, name).None? then r.value == default else r.value == ToStr(Opt(o, name).value)
  {
    var v := Opt(o, name);
    if v.None? then Ok(default)
    else if ToStr(v.value) !in allowed then Err(Invalid(name))
    else Ok(ToStr(v.value))
  }

  // ---------------------------------------------------------------------
  // The constructor

  predicate IsOptionsError(e: string) {
    |e| >= 23 && e[..23] == "InstafeedOptionsError: "
  }

  lemma MessagesAreOptionsErrors(name: string)
    ensures IsOptionsError(Invalid(name)) && IsOptionsError(MissingOrInvalid(name))
    ensures IsOptionsError(MissingOptions)
  {
    assert Invalid(name)[..23] == ("InstafeedOptionsError: " + ("Invalid option \"" + name + "\"."))[..23];
    assert MissingOrInvalid(name)[..23] == ("InstafeedOptionsError: " + ("Missing or invalid option \"" + name + "\"."))[..23];
  }

  /** Where the request goes and how the feed is ordered. */
  datatype Request = Request(url: string, sort: SortOption)

  /** How items are shown: the render settings, the target id, `mock`. */
  datatype Look = Look(render: RenderConfig, target: string, mock: bool)

  /** The checks up to `sort`, and the URL they build: the feed's path is
      checked first, then the token; the URL lies under the API root and
      the order is the `sort` option's. */
  function ReadRequest(o: Value, uuid: string, encode: string -> string): (r: Result<Request, string>)
    ensures Endpoint(o, encode).Err? ==> r == Err(Endpoint(o, encode).error)
    ensures Endpoint(o, encode).Ok? && !IsString(Opt(o, "accessToken")) ==>
      r == Err(MissingOrInvalid("accessToken"))
    ensures r.Ok? ==> |Api| < |r.value.url| && r.value.url[..|Api|] == Api
    ensures r.Ok? ==> SortOpt(o) == Ok(r.value.sort)
  {
    var endpoint :- Endpoint(o, encode);
    var token := Opt(o, "accessToken");
    if !IsString(token) then Err(MissingOrInvalid("accessToken"))
    else
      var count :- CountParam(o);
      var sort :- SortOpt(o);
      Ok(Request(Api + endpoint + "/media/recent?access_token=" + encode(token.value.s)
                 + "&callback=" + uuid + ".parse" + count, sort))
  }

  /** The five templates. */
  datatype Templates = Templates(image: string, video: string, frame: string, carouselImage: string, carouselVideo: string)

  /** `v` is what a string option `name` sets: its value when present,
      `default` when absent. */
  predicate TextChosen(o: Value, name: string, v: string, default: string) {
    if Opt(o, name).None? then v == default else Opt(o, name) == Some(Str(v))
  }

  /** The checks from `imageTemplate` to `carouselVideoTemplate`. Each
      template is the option's text or its default. */
  function ReadTemplates(o: Value): (r: Result<Templates, string>)
    ensures r.Ok? ==>
      && TextChosen(o, "imageTemplate", r.value.image, DefaultImageTemplate)
      && TextChosen(o, "videoTemplate", r.value.video, DefaultPreviewTemplate)
      && TextChosen(o, "carouselFrameTemplate", r.value.frame, DefaultPreviewTemplate)
      && TextChosen(o, "carouselImageTemplate", r.value.carouselImage, "")
      && TextChosen(o, "carouselVideoTemplate", r.value.carouselVideo, "")
  {
    var image :- TextOpt(o, "imageTemplate", DefaultImageTemplate);
    var video :- TextOpt(o, "videoTemplate", DefaultPreviewTemplate);
    var frame :- TextOpt(o, "carouselFrameTemplate", DefaultPreviewTemplate);
    var carouselImage :- TextOpt(o, "carouselImageTemplate", "");
    var carouselVideo :- TextOpt(o, "carouselVideoTemplate", "");
    Ok(Templates(image, video, frame, carouselImage, carouselVideo))
  }

  /** The checks from `imageTemplate` to `mock`: the resolutions are ones
      the API offers, and the target is the option's text or `instafeed`. */
  function ReadLook(o: Value): (r: Result<Look, string>)
    ensures r.Ok? ==> ReadTemplates(o).Ok? && r.value.render.imageTemplate == ReadTemplates(o).value.image
    ensures r.Ok? ==>
      r.value.render.imageResolution in ImageResolutions && r.value.render.videoResolution in VideoResolutions
    ensures r.Ok? ==> TextChosen(o, "target", r.value.target, "instafeed")
    ensures ReadTemplates(o).Err? ==> r == Err(ReadTemplates(o).error)
  {
    var t :- ReadTemplates(o);
    var imageResolution :- ChoiceOpt(o, "imageResolution", ImageResolutions, "thumbnail");
    var videoResolution :- ChoiceOpt(o, "videoResolution", VideoResolutions, "standard_resolution");
    var relative :- FlagOpt(o, "relativeScheme", false);
    var target :- TextOpt(o, "target", "instafeed");
    var mock :- FlagOpt(o, "mock", false);
    Ok(Look(RenderConfig(t.image, t.video, t.frame, t.carouselImage, t.carouselVideo,
                         imageResolution, videoResolution, relative),
            target, mock))
  }

  /** `new Instafeed(options)`. `uuid` is the instance's callback name
      (`"instafeed"` and a random UUID without dashes) and `encode` stands
      for `encodeURIComponent`. The checks run in the order of the source
      and the first failing one gives the message. */
  function ParseOptions(options: Slot, uuid: string, encode: string -> string): (r: Result<Settings, string>)
    ensures !Truthy(options) ==> r == Err(MissingOptions)
    ensures r.Ok? ==> |Api| < |r.value.url| && r.value.url[..|Api|] == Api
    ensures r.Ok? ==>
      r.value.render.imageResolution in ImageResolutions && r.value.render.videoResolution in VideoResolutions
    ensures r.Ok? ==> TextChosen(options.value, "target", r.value.target, "instafeed")
    ensures r.Ok? ==> SortOpt(options.value) == Ok(r.value.sort)
  {
    if !Truthy(options) then Err(MissingOptions)
    else
      var request :- ReadRequest(options.value, uuid, encode);
      var look :- ReadLook(options.value);
      Ok(Settings(request.url, request.sort, look.render, look.target, look.mock))
  }

  // ---------------------------------------------------------------------
  // Properties

  predicate RequestAcceptable(o: Value, encode: string -> string) {
    && Endpoint(o, encode).Ok?
    && IsString(Opt(o, "accessToken"))
    && (Opt(o, "limit").None? || IsNumber(Opt(o, "limit")))
    && (Opt(o, "sort").None? || ParseOrder(ToStr(Opt(o, "sort").value)).Some?)
  }

  /** Absent, or present with the `typeof` the option needs. */
  predicate TextOk(o: Value, name: string) {
    Opt(o, name).None? || IsString(Opt(o, name))
  }

  predicate FlagOk(o: Value, name: string) {
    Opt(o, name).None? || IsBoolean(Opt(o, name))
  }

  predicate ChoiceOk(o: Value, name: string, allowed: set<string>) {
    Opt(o, name).None? || ToStr(Opt(o, name).value) in allowed
  }

  predicate TemplatesAcceptable(o: Value) {
    && TextOk(o, "imageTemplate")
    && TextOk(o, "videoTemplate")
    && TextOk(o, "carouselFrameTemplate")
    && TextOk(o, "carouselImageTemplate")
    && TextOk(o, "carouselVideoTemplate")
  }

  predicate LookAcceptable(o: Value) {
    && TemplatesAcceptable(o)
    && ChoiceOk(o, "imageResolution", ImageResolutions)
    && ChoiceOk(o, "videoResolution", VideoResolutions)
    && FlagOk(o, "relativeScheme")
    && TextOk(o, "target")
    && FlagOk(o, "mock")
  }

  /** The options the constructor accepts, option by option. */
  predicate Acceptable(options: Slot, encode: string -> string) {
    Truthy(options) && RequestAcceptable(options.value, encode) && LookAcceptable(options.value)
  }

  lemma ReadRequestAccepts(o: Value, uuid: string, encode: string -> string)
    ensures ReadRequest(o, uuid, encode).Ok? <==> RequestAcceptable(o, encode)
    ensures ReadRequest(o, uuid, encode).Err? ==> IsOptionsError(ReadRequest(o, uuid, encode).error)
  {
    MessagesAreOptionsErrors("accessToken");
    MessagesAreOptionsErrors("limit");
    MessagesAreOptionsErrors("sort");
    MessagesAreOptionsErrors("tagName");
    MessagesAreOptionsErrors("locationId");
    MessagesAreOptionsErrors("get");
    MessagesAreOptionsErrors("userId");
  }

  lemma ReadTemplatesAccepts(o: Value)
    ensures ReadTemplates(o).Ok? <==> TemplatesAcceptable(o)
    ensures ReadTemplates(o).Err? ==> IsOptionsError(ReadTemplates(o).error)
  {
    hide Opt, IsOptionsError;
    MessagesAreOptionsErrors("imageTemplate");
    MessagesAreOptionsErrors("videoTemplate");
    MessagesAreOptionsErrors("carouselFrameTemplate");
    MessagesAreOptionsErrors("carouselImageTemplate");
    MessagesAreOptionsErrors("carouselVideoTemplate");
  }

  lemma ReadLookAccepts(o: Value)
    ensures ReadLook(o).Ok? <==> LookAcceptable(o)
    ensures ReadLook(o).Err? ==> IsOptionsError(ReadLook(o).error)
  {
    ReadTemplatesAccepts(o);
    hide Opt, ToStr, IsOptionsError, ReadTemplates, TemplatesAcceptable;
    MessagesAreOptionsErrors("imageResolution");
    MessagesAreOptionsErrors("videoResolution");
    MessagesAreOptionsErrors("relativeScheme");
    MessagesAreOptionsErrors("target");
    MessagesAreOptionsErrors("mock");
  }

  /** The constructor succeeds exactly on acceptable options, and every
      failure is an options error. */
  lemma ParseOptionsAccepts(options: Slot, uuid: string, encode: string -> string)
    ensures ParseOptions(options, uuid, encode).Ok? <==> Acceptable(options, encode)
    ensures ParseOptions(options, uuid, encode).Err? ==> IsOptionsError(ParseOptions(options, uuid, encode).error)
  {
    MessagesAreOptionsErrors("");
    if Truthy(options) {
      ReadRequestAccepts(options.value, uuid, encode);
      ReadLookAccepts(options.value);
    }
  }

  // ---------------------------------------------------------------------
  // Defaults

  /** Options holding only an access token. */
  function TokenOnly(token: string): Value {
    Obj(map["accessToken" := Str(token)])
  }

  lemma TokenOnlyAbsent(token: string, name: string)
    requires name != "accessToken"
    ensures Opt(TokenOnly(token), name) == None
  {
  }

  lemma TokenOnlyRequest(token: string, uuid: string, encode: string -> string)
    ensures ReadRequest(TokenOnly(token), uuid, encode) ==
      Ok(Request(Api + "users/self" + "/media/recent?access_token=" + encode(token)
                 + "&callback=" + uuid + ".parse" + "", Named(Unsorted)))
  {
    TokenOnlyAbsent(token, "get");
    TokenOnlyAbsent(token, "userId");
    TokenOnlyAbsent(token, "limit");
    TokenOnlyAbsent(token, "sort");
    assert Opt(TokenOnly(token), "accessToken") == Some(Str(token));
    hide Opt;
  }

  lemma TokenOnlyTemplates(token: string)
    ensures ReadTemplates(TokenOnly(token)) ==
      Ok(Templates(DefaultImageTemplate, DefaultPreviewTemplate, DefaultPreviewTemplate, "", ""))
  {
    TokenOnlyAbsent(token, "imageTemplate");
    TokenOnlyAbsent(token, "videoTemplate");
    TokenOnlyAbsent(token, "carouselFrameTemplate");
    TokenOnlyAbsent(token, "carouselImageTemplate");
    TokenOnlyAbsent(token, "carouselVideoTemplate");
    hide Opt;
  }

  lemma TokenOnlyLook(token: string)
    ensures ReadLook(TokenOnly(token)) ==
      Ok(Look(RenderConfig(DefaultImageTemplate, DefaultPreviewTemplate, DefaultPreviewTemplate, "", "",
                           "thumbnail", "standard_resolution", false), "instafeed", false))
  {
    TokenOnlyTemplates(token);
    TokenOnlyAbsent(token, "imageResolution");
    TokenOnlyAbsent(token, "videoResolution");
    TokenOnlyAbsent(token, "relativeScheme");
    TokenOnlyAbsent(token, "target");
    TokenOnlyAbsent(token, "mock");
    hide Opt, ReadTemplates;
  }

  /** The settings combine what the two halves of the checks read. */
  lemma ParseOptionsOk(o: Value, uuid: string, encode: string -> string, req: Request, look: Look)
    requires Truthy(Some(o)) && ReadRequest(o, uuid, encode) == Ok(req) && ReadLook(o) == Ok(look)
    ensures ParseOptions(Some(o), uuid, encode) == Ok(Settings(req.url, req.sort, look.render, look.target, look.mock))
  {
  }

  /** The default URL, with the path pieces joined. */
  lemma DefaultUrl(token: string, uuid: string)
    ensures Api + "users/self" + "/media/recent?access_token=" + token + "&callback=" + uuid + ".parse" + ""
      == Api + "users/self/media/recent?access_token=" + token + "&callback=" + uuid + ".parse"
  {
    assert "users/self" + "/media/recent?access_token=" == "users/self/media/recent?access_token=";
  }

  /** An access token alone is enough: the feed is the token owner's recent
      media, unsorted, with the default templates, resolutions and target,
      absolute URLs, and live data. */
  lemma TokenOnlyDefaults(token: string, uuid: string, encode: string -> string)
    ensures ParseOptions(Some(TokenOnly(token)), uuid, encode) ==
      Ok(Settings(
        Api + "users/self/media/recent?access_token=" + encode(token) + "&callback=" + uuid + ".parse",
        Named(Unsorted),
        RenderConfig(DefaultImageTemplate, DefaultPreviewTemplate, DefaultPreviewTemplate, "", "",
                     "thumbnail", "standard_resolution", false),
        "instafeed", false))
  {
    hide ParseOptions, ReadRequest, ReadLook, TextChosen, SortOpt, Truthy;
    var url := Api + "users/self" + "/media/recent?access_token=" + encode(token) + "&callback=" + uuid + ".parse" + "";
    DefaultUrl(encode(token), uuid);
    TokenOnlyRequest(token, uuid, encode);
    TokenOnlyLook(token);
    ParseOptionsOk(TokenOnly(token), uuid, encode, Request(url, Named(Unsorted)),
      Look(RenderConfig(DefaultImageTemplate, DefaultPreviewTemplate, DefaultPreviewTemplate, "", "",
                        "thumbnail", "standard_resolution", false), "instafeed", false));
  }

  /** `sort: ["random"]` passes the pattern, because `test` reads the
      array as the string `random`, and is stored as the array itself. */
  lemma ArraySortAccepted()
    ensures SortOpt(Obj(map["sort" := Arr([Str("random")])])) == Ok(Coerced(Arr([Str("random")])))
  {
    var items := [Str("random")];
    assert ToStr(Arr(items)) == "random" by {
      assert seq(|items|, i requires 0 <= i < |items| => if items[i].Null? then "" else ToStr(items[i])) == ["random"];
    }
  }
}

=== FILE: ordering.dfy ===
/** The two ways `parse` (lib/instafeed.js) reorders `response.data`
    before rendering: an in-place Fisher–Yates shuffle driven by
    `Math.random`, and `Array.prototype.sort` with a comparator on one
    metric of each item. */
module Ordering {
  import opened Wrappers
  import opened Js
  import opened PathResolver

  // ---------------------------------------------------------------------
  // Metric keys

  /** The second word of a `most-…` or `least-…` sort option. */
  datatype Metric = Recent | Liked | Commented

  /** The property path the comparator reads for a metric. */
  function MetricPath(m: Metric): string {
    match m
    case Recent => "created_time"
    case Liked => "likes.count"
    case Commented => "comments.count"
  }

  /** What the comparator reads from one item: `getObjectProperty(a,
      property)`, where a primitive on the way is a TypeError and a null
      result is the generic error. */
  function KeyOf(d: Value, m: Metric): (r: Result<Value, Fault>)
    ensures r.Ok? ==> !r.value.Null?
    ensures r.Err? ==> r.error == Invalid || r.error == HostTypeError
    ensures r == Err(Invalid) <==> Resolve(d, MetricPath(m)) == Ok(Null)
    ensures r == Err(HostTypeError) <==> Resolve(d, MetricPath(m)).Err?
    ensures r.Ok? ==> Resolve(d, MetricPath(m)) == r
  {
    var v :- Resolve(d, MetricPath(m));
    if v.Null? then Err(Invalid) else Ok(v)
  }

  /** The key of an item whose key reads cleanly (`Null` otherwise). */
  function Key(d: Value, m: Metric): Value {
    match KeyOf(d, m)
    case Ok(v) => v
    case Err(_) => Null
  }

  /** An item carrying `v` under the metric's path has key `v`. */
  lemma KeyOfNest(m: Metric, v: Value)
    requires !v.Null?
    ensures KeyOf(Nest(Segments(MetricPath(m)), v), m) == Ok(v)
  {
    WalkNest(Segments(MetricPath(m)), v);
  }

  // ---------------------------------------------------------------------
  // `valueA < valueB`

  /** `a < b` on two strings: code-unit lexicographic order, a proper
      prefix coming first. */
  predicate StrLess(a: string, b: string)
    decreases |a|
  {
    if |a| == 0 then |b| > 0
    else if |b| == 0 then false
    else if a[0] == b[0] then StrLess(a[1..], b[1..])
    else a[0] < b[0]
  }

  /** `a < b` for two numbers or two strings; other pairs are left
      unordered (see README). */
  predicate Less(a: Value, b: Value)
    ensures Less(a, b) ==> SameKind(a, b) && a != b
    ensures a.Num? && b.Num? ==> (Less(a, b) <==> a.n < b.n)
  {
    if a.Str? && b.Str? then
      StrLessIrreflexive(a.s);
      StrLess(a.s, b.s)
    else a.Num? && b.Num? && a.n < b.n
  }

  lemma {:induction false} StrLessIrreflexive(a: string)
    ensures !StrLess(a, a)
    decreases |a|
  {
    if |a| > 0 {
      StrLessIrreflexive(a[1..]);
    }
  }

  lemma {:induction false} StrLessAsymmetric(a: string, b: string)
    requires StrLess(a, b)
    ensures !StrLess(b, a)
    decreases |a|
  {
    if |a| > 0 && |b| > 0 && a[0] == b[0] {
      StrLessAsymmetric(a[1..], b[1..]);
    }
  }

  lemma {:induction false} StrLessTransitive(a: string, b: string, c: string)
    requires StrLess(a, b) && StrLess(b, c)
    ensures StrLess(a, c)
    decreases |a|
  {
    if |a| > 0 && a[0] == b[0] && b[0] == c[0] {
      StrLessTransitive(a[1..], b[1..], c[1..]);
    }
  }

  /** Two different strings are ordered one way or the other. */
  lemma {:induction false} StrLessTotal(a: string, b: string)
    requires a != b
    ensures StrLess(a, b) || StrLess(b, a)
    decreases |a|
  {
    if |a| > 0 && |b| > 0 && a[0] == b[0] {
      assert a == [a[0]] + a[1..] && b == [b[0]] + b[1..];
      StrLessTotal(a[1..], b[1..]);
    }
  }

  /** Keys of one kind, which `<` orders totally. */
  predicate SameKind(a: Value, b: Value) {
    (a.Num? && b.Num?) || (a.Str? && b.Str?)
  }

  lemma LessAsymmetric(a: Value, b: Value)
    requires Less(a, b)
    ensures !Less(b, a)
  {
    if a.Str? && b.Str? {
      StrLessAsymmetric(a.s, b.s);
    }
  }

  lemma LessTransitive(a: Value, b: Value, c: Value)
    requires Less(a, b) && Less(b, c)
    ensures Less(a, c)
  {
    if a.Str? {
      StrLessTransitive(a.s, b.s, c.s);
    }
  }

  lemma LessTotal(a: Value, b: Value)
    requires SameKind(a, b) && a != b
    ensures Less(a, b) || Less(b, a)
  {
    if a.Str? {
      StrLessTotal(a.s, b.s);
    }
  }

  // ---------------------------------------------------------------------
  // The comparator

  /** `valueA < valueB ^ reverse ? 1 : -1` on two keys; `reverse` holds
      for the `least-…` options. */
  function Compare(a: Value, b: Value, reverse: bool): (r: int)
    ensures r == 1 || r == -1
  {
    if Less(a, b) != reverse then 1 else -1
  }

  /** Whether `a` may stand before `b` in the order the option asks for:
      `most` wants non-increasing keys, `least` non-decreasing ones. */
  predicate InOrder(a: Value, b: Value, reverse: bool) {
    if reverse then !Less(b, a) else !Less(a, b)
  }

  /** On distinct keys of one kind the comparator puts the larger key first
      for `most` and the smaller first for `least`; on equal keys it says
      "first argument first" for `most` and the opposite for `least`,
      whichever way round it is asked, so it is not a consistent
      comparator there. */
  lemma CompareSpec(a: Value, b: Value, reverse: bool)
    requires SameKind(a, b)
    ensures a != b ==> (Compare(a, b, reverse) == -1 <==> InOrder(a, b, reverse))
    ensures a != b ==> Compare(a, b, reverse) == -Compare(b, a, reverse)
    ensures a == b ==> Compare(a, b, reverse) == (if reverse then 1 else -1)
  {
    if a != b {
      LessTotal(a, b);
      if Less(a, b) {
        LessAsymmetric(a, b);
      } else {
        LessAsymmetric(b, a);
      }
    } else if a.Str? {
      StrLessIrreflexive(a.s);
    }
  }

  /** The model's choice of "`a` goes first": the comparator returned -1. */
  predicate Before(a: Value, b: Value, reverse: bool) {
    Compare(a, b, reverse) == -1
  }

  lemma BeforeInOrder(a: Value, b: Value, reverse: bool)
    requires Before(a, b, reverse)
    ensures InOrder(a, b, reverse)
  {
    if reverse {
      LessAsymmetric(a, b);
    }
  }

  lemma NotBeforeInOrder(a: Value, b: Value, reverse: bool)
    requires !Before(a, b, reverse)
    ensures InOrder(b, a, reverse)
  {
    if !reverse {
      LessAsymmetric(a, b);
    }
  }

  lemma InOrderTransitive(a: Value, b: Value, c: Value, reverse: bool)
    requires SameKind(a, b) && SameKind(b, c)
    requires InOrder(a, b, reverse) && InOrder(b, c, reverse)
    ensures InOrder(a, c, reverse)
  {
    if a != b && b != c {
      LessTotal(a, b);
      LessTotal(b, c);
      if reverse {
        LessTransitive(a, b, c);
        LessAsymmetric(a, c);
      } else {
        LessTransitive(c, b, a);
        LessAsymmetric(c, a);
      }
    }
  }

  // ---------------------------------------------------------------------
  // Sorting

  /** All keys are numbers or all are strings, so `<` orders them totally. */
  predicate Uniform(s: seq<Value>, key: Value -> Value) {
    || (forall i | 0 <= i < |s| :: key(s[i]).Num?)
    || (forall i | 0 <= i < |s| :: key(s[i]).Str?)
  }

  /** Sorted as the option asks, pair by pair. */
  predicate Ordered(s: seq<Value>, key: Value -> Value, reverse: bool) {
    forall i, j | 0 <= i < j < |s| :: InOrder(key(s[i]), key(s[j]), reverse)
  }

  /** Inserts `x` before the first element the comparator does not put
      after it. */
  function Insert(x: Value, s: seq<Value>, key: Value -> Value, reverse: bool): (r: seq<Value>)
    ensures |r| == |s| + 1
    ensures multiset(r) == multiset(s) + multiset{x}
  {
    if |s| == 0 then [x]
    else if Before(key(x), key(s[0]), reverse) then [x] + s
    else
      assert s == [s[0]] + s[1..];
      [s[0]] + Insert(x, s[1..], key, reverse)
  }

  /** The order the model picks among those a sort may produce. */
  function InsertionSort(s: seq<Value>, key: Value -> Value, reverse: bool): (r: seq<Value>)
    ensures |r| == |s|
    ensures multiset(r) == multiset(s)
  {
    if |s| == 0 then []
    else
      assert s == [s[0]] + s[1..];
      Insert(s[0], InsertionSort(s[1..], key, reverse), key, reverse)
  }

  lemma UniformSub(s: seq<Value>, t: seq<Value>, key: Value -> Value)
    requires Uniform(s, key)
    requires multiset(t) <= multiset(s)
    ensures Uniform(t, key)
  {
    forall i | 0 <= i < |t|
      ensures t[i] in s
    {
      assert t[i] in multiset(t);
    }
  }

  /** Putting in front of a sorted list an element that may precede each
      of its elements keeps it sorted. */
  lemma ConsOrdered(y: Value, t: seq<Value>, key: Value -> Value, reverse: bool)
    requires Ordered(t, key, reverse)
    requires forall j | 0 <= j < |t| :: InOrder(key(y), key(t[j]), reverse)
    ensures Ordered([y] + t, key, reverse)
  {
    var r := [y] + t;
    assert forall j | 1 <= j < |r| :: r[j] == t[j - 1];
  }

  lemma InsertFront(x: Value, s: seq<Value>, key: Value -> Value, reverse: bool)
    requires Uniform([x] + s, key) && |s| > 0
    requires Ordered(s, key, reverse)
    requires InOrder(key(x), key(s[0]), reverse)
    ensures Ordered([x] + s, key, reverse)
  {
    var u := [x] + s;
    assert u[0] == x;
    assert forall j | 0 <= j < |s| :: s[j] == u[j + 1];
    forall j | 0 <= j < |s|
      ensures InOrder(key(x), key(s[j]), reverse)
    {
      if j > 0 {
        InOrderTransitive(key(x), key(s[0]), key(s[j]), reverse);
      }
    }
    ConsOrdered(x, s, key, reverse);
  }

  lemma InsertLater(x: Value, s: seq<Value>, t: seq<Value>, key: Value -> Value, reverse: bool)
    requires |s| > 0 && Ordered(s, key, reverse) && Ordered(t, key, reverse)
    requires InOrder(key(s[0]), key(x), reverse)
    requires multiset(t) == multiset(s[1..]) + multiset{x}
    ensures Ordered([s[0]] + t, key, reverse)
  {
    forall j | 0 <= j < |t|
      ensures InOrder(key(s[0]), key(t[j]), reverse)
    {
      assert t[j] in multiset(t);
      if t[j] != x {
        assert t[j] in multiset(s[1..]);
        var k :| 0 <= k < |s[1..]| && s[1..][k] == t[j];
        assert s[k + 1] == t[j];
      }
    }
    ConsOrdered(s[0], t, key, reverse);
  }

  lemma {:induction false} InsertOrdered(x: Value, s: seq<Value>, key: Value -> Value, reverse: bool)
    requires Uniform([x] + s, key)
    requires Ordered(s, key, reverse)
    ensures Ordered(Insert(x, s, key, reverse), key, reverse)
  {
    if |s| > 0 {
      var kx := key(x);
      var k0 := key(s[0]);
      if Before(kx, k0, reverse) {
        assert ([x] + s)[1] == s[0];
        BeforeInOrder(kx, k0, reverse);
        InsertFront(x, s, key, reverse);
      } else {
        NotBeforeInOrder(kx, k0, reverse);
        assert s == [s[0]] + s[1..];
        UniformSub([x] + s, [x] + s[1..], key);
        assert Ordered(s[1..], key, reverse);
        InsertOrdered(x, s[1..], key, reverse);
        InsertLater(x, s, Insert(x, s[1..], key, reverse), key, reverse);
      }
    }
  }

  /** With uniform keys the chosen order is sorted the way the option asks. */
  lemma {:induction false} InsertionSortOrdered(s: seq<Value>, key: Value -> Value, reverse: bool)
    requires Uniform(s, key)
    ensures Ordered(InsertionSort(s, key, reverse), key, reverse)
  {
    if |s| > 0 {
      var t := InsertionSort(s[1..], key, reverse);
      assert s == [s[0]] + s[1..];
      UniformSub(s, s[1..], key);
      InsertionSortOrdered(s[1..], key, reverse);
      UniformSub(s, [s[0]] + t, key);
      InsertOrdered(s[0], t, key, reverse);
    }
  }

  /** The comparator's view of an item under a metric. */
  function KeyFn(m: Metric): Value -> Value {
    d => Key(d, m)
  }

  /** A key that is a number or a string was read cleanly. */
  lemma KeyRead(d: Value, m: Metric)
    requires KeyFn(m)(d).Num? || KeyFn(m)(d).Str?
    ensures KeyOf(d, m) == Ok(KeyFn(m)(d))
  {
  }

  /** The first item, in array order, whose key does not read. */
  function FirstBad(s: seq<Value>, m: Metric): (r: Option<Fault>)
    ensures r.None? <==> forall i | 0 <= i < |s| :: KeyOf(s[i], m).Ok?
  {
    if |s| == 0 then None
    else if KeyOf(s[0], m).Err? then Some(KeyOf(s[0], m).error)
    else
      var r := FirstBad(s[1..], m);
      assert forall i | 1 <= i < |s| :: s[i] == s[1..][i - 1];
      r
  }

  lemma {:induction false} FirstBadIsFirst(s: seq<Value>, m: Metric)
    requires FirstBad(s, m).Some?
    ensures exists k | 0 <= k < |s| ::
      && KeyOf(s[k], m) == Err(FirstBad(s, m).value)
      && forall i | 0 <= i < k :: KeyOf(s[i], m).Ok?
  {
    hide KeyOf, Resolve;
    if KeyOf(s[0], m).Ok? {
      FirstBadIsFirst(s[1..], m);
      var k :| 0 <= k < |s[1..]| && KeyOf(s[1..][k], m) == Err(FirstBad(s[1..], m).value)
        && forall i | 0 <= i < k :: KeyOf(s[1..][i], m).Ok?;
      assert s[k + 1] == s[1..][k];
      assert forall i | 1 <= i <= k :: s[i] == s[1..][i - 1];
    } else {
      assert KeyOf(s[0], m) == Err(FirstBad(s, m).value);
    }
  }

  /** `response.data.sort(comparator)`. The comparator runs only when there
      are two items or more; then every item is compared at least once, so
      one unreadable key aborts the sort. It fails exactly then, with the
      error of the first such item in array order; otherwise it returns a
      permutation of the items, sorted as asked whenever the keys are all
      numbers or all strings. */
  function SortByMetric(s: seq<Value>, m: Metric, reverse: bool): (r: Result<seq<Value>, Fault>)
    ensures r.Err? <==> |s| >= 2 && exists i | 0 <= i < |s| :: KeyOf(s[i], m).Err?
    ensures r.Err? ==>
      exists k | 0 <= k < |s| ::
        && KeyOf(s[k], m) == Err(r.error)
        && forall i | 0 <= i < k :: KeyOf(s[i], m).Ok?
    ensures r.Ok? ==> multiset(r.value) == multiset(s)
    ensures r.Ok? && Uniform(s, KeyFn(m)) ==> Ordered(r.value, KeyFn(m), reverse)
  {
    if |s| < 2 then Ok(s)
    else
      match FirstBad(s, m)
      case Some(f) => FirstBadIsFirst(s, m); Err(f)
      case None =>
        if Uniform(s, KeyFn(m)) then
          InsertionSortOrdered(s, KeyFn(m), reverse);
          Ok(InsertionSort(s, KeyFn(m), reverse))
        else Ok(InsertionSort(s, KeyFn(m), reverse))
  }

  /** `most-…` on numeric keys gives non-increasing counts and `least-…`
      non-decreasing ones. */
  lemma NumericOrder(s: seq<Value>, m: Metric, reverse: bool)
    requires forall i | 0 <= i < |s| :: KeyFn(m)(s[i]).Num?
    ensures SortByMetric(s, m, reverse).Ok?
    ensures var r := SortByMetric(s, m, reverse).value;
      forall i, j | 0 <= i < j < |r| ::
        && KeyFn(m)(r[i]).Num? && KeyFn(m)(r[j]).Num?
        && if reverse then KeyFn(m)(r[i]).n <= KeyFn(m)(r[j]).n else KeyFn(m)(r[i]).n >= KeyFn(m)(r[j]).n
  {
    forall i | 0 <= i < |s|
      ensures KeyOf(s[i], m).Ok?
    {
      KeyRead(s[i], m);
    }
    var r := SortByMetric(s, m, reverse).value;
    forall i | 0 <= i < |r|
      ensures KeyFn(m)(r[i]).Num?
    {
      assert r[i] in multiset(s);
    }
  }

  // ---------------------------------------------------------------------
  // Shuffling

  /** A value `Math.random()` can return. */
  type Unit = r: real | 0.0 <= r < 1.0

  /** `Math.floor(Math.random() * (i + 1))`. */
  function Pick(r: Unit, i: nat): (j: nat)
    ensures j <= i
  {
    var x := r * (i + 1) as real;
    assert 0.0 <= x < (i + 1) as real by {
      assert (1.0 - r) * (i + 1) as real > 0.0;
    }
    x.Floor
  }

  /** Exchanges two elements. */
  function Swap<T>(a: seq<T>, i: nat, j: nat): (r: seq<T>)
    requires i < |a| && j < |a|
    ensures |r| == |a| && r[i] == a[j] && r[j] == a[i]
    ensures forall k | 0 <= k < |a| && k != i && k != j :: r[k] == a[k]
    ensures multiset(r) == multiset(a)
  {
    a[i := a[j]][j := a[i]]
  }

  /** The loop from index `i` down to 1, the `k`-th call to `Math.random`
      being `random(k)`. */
  function ShuffleFrom<T>(a: seq<T>, random: nat -> Unit, k: nat, i: nat): (r: seq<T>)
    requires i < |a|
    ensures |r| == |a|
    decreases i
  {
    if i == 0 then a else ShuffleFrom(Swap(a, i, Pick(random(k), i)), random, k + 1, i - 1)
  }

  /** The loop permutes the array. */
  lemma {:induction false} ShuffleFromPermutes<T>(a: seq<T>, random: nat -> Unit, k: nat, i: nat)
    requires i < |a|
    ensures multiset(ShuffleFrom(a, random, k, i)) == multiset(a)
    decreases i
  {
    hide Pick, Swap;
    if i > 0 {
      ShuffleFromPermutes(Swap(a, i, Pick(random(k), i)), random, k + 1, i - 1);
    }
  }

  /** Once index `i` is processed, the slots above it are final. */
  lemma {:induction false} ShuffleFromKeepsTail<T>(a: seq<T>, random: nat -> Unit, k: nat, i: nat)
    requires i < |a|
    ensures forall j | i < j < |a| :: ShuffleFrom(a, random, k, i)[j] == a[j]
    decreases i
  {
    hide Pick, Swap;
    if i > 0 {
      ShuffleFromKeepsTail(Swap(a, i, Pick(random(k), i)), random, k + 1, i - 1);
    }
  }

  /** `for(i = data.length - 1; i; i--) { … }`: on an empty array `i`
      starts at -1, is truthy forever and the loop never ends. Otherwise it
      returns a permutation whose last element is the one the first draw
      picked. */
  function Shuffle<T>(a: seq<T>, random: nat -> Unit): (r: Result<seq<T>, Fault>)
    ensures r.Err? <==> |a| == 0
    ensures r.Err? ==> r.error == Loops
    ensures r.Ok? ==> |r.value| == |a| && multiset(r.value) == multiset(a)
    ensures r.Ok? ==> r.value[|a| - 1] == a[Pick(random(0), |a| - 1)]
  {
    if |a| == 0 then Err(Loops)
    else
      ShuffleLoop(a, random);
      Ok(ShuffleFrom(a, random, 0, |a| - 1))
  }

  /** The whole loop permutes the array, and its first turn fixes the last
      slot. */
  lemma ShuffleLoop<T>(a: seq<T>, random: nat -> Unit)
    requires |a| > 0
    ensures multiset(ShuffleFrom(a, random, 0, |a| - 1)) == multiset(a)
    ensures ShuffleFrom(a, random, 0, |a| - 1)[|a| - 1] == a[Pick(random(0), |a| - 1)]
  {
    hide Pick, Swap;
    var n := |a|;
    ShuffleFromPermutes(a, random, 0, n - 1);
    if n > 1 {
      var b := Swap(a, n - 1, Pick(random(0), n - 1));
      assert ShuffleFrom(a, random, 0, n - 1) == ShuffleFrom(b, random, 1, n - 2);
      ShuffleFromKeepsTail(b, random, 1, n - 2);
    }
  }

  /** The same loop over a mutable copy, counting the draws it consumes. */
  method ShuffleInPlace<T>(a: seq<T>, random: nat -> Unit) returns (r: seq<T>, draws: nat)
    requires |a| > 0
    ensures Shuffle(a, random) == Ok(r)
    ensures multiset(r) == multiset(a)
    ensures draws == |a| - 1
  {
    hide Pick, Swap;
    r := a;
    draws := 0;
    var i: nat := |a| - 1;
    assert Shuffle(a, random) == Ok(ShuffleFrom(a, random, 0, |a| - 1));
    hide Shuffle;
    while i > 0
      invariant i < |a| == |r|
      invariant draws == |a| - 1 - i
      invariant multiset(r) == multiset(a)
      invariant ShuffleFrom(r, random, draws, i) == ShuffleFrom(a, random, 0, |a| - 1)
    {
      r := Swap(r, i, Pick(random(draws), i));
      draws := draws + 1;
      i := i - 1;
    }
  }
}

=== FILE: path_resolver.dfy ===
/** `getObjectProperty` (lib/instafeed.js): reads a dotted or bracketed
    property path such as `user.full_name` or `images[thumbnail].url` out
    of a nested value. */
module PathResolver {
  import opened Wrappers
  import opened Js
  import opened SeqFacts

  /** The regular-expression class `\w`. */
  predicate IsWordChar(c: char) {
    ('a' <= c <= 'z') || ('A' <= c <= 'Z') || ('0' <= c <= '9') || c == '_'
  }

  predicate IsWord(s: string) {
    |s| > 0 && forall i :: 0 <= i < |s| ==> IsWordChar(s[i])
  }

  /** Length of the longest prefix of `s` made of word characters. */
  function WordRun(s: string): (n: nat)
    ensures n <= |s|
    ensures n < |s| ==> !IsWordChar(s[n])
  {
    if |s| > 0 && IsWordChar(s[0]) then 1 + WordRun(s[1..]) else 0
  }

  /** Whether `s` starts with a bracket segment `[word]`. */
  predicate StartsWithBracket(s: string) {
    |s| > 0 && s[0] == '[' && 0 < WordRun(s[1..]) && 1 + WordRun(s[1..]) < |s|
    && s[1 + WordRun(s[1..])] == ']'
  }

  /** Rewrites every `[word]` into `.word`, scanning left to right
      without overlap, as a global regular-expression replace does. */
  function Normalize(s: string): (r: string)
    ensures |r| <= |s|
    ensures '[' !in s ==> r == s
    decreases |s|
  {
    if |s| == 0 then ""
    else if StartsWithBracket(s) then
      var w := WordRun(s[1..]);
      "." + s[1..1 + w] + Normalize(s[2 + w..])
    else [s[0]] + Normalize(s[1..])
  }

  /** `String.prototype.split` with a one-character separator: empty
      pieces are kept, and the empty string gives one empty piece. */
  function Split(s: string, sep: char): (r: seq<string>)
    ensures |r| > 0
    ensures forall i | 0 <= i < |r| :: sep !in r[i]
  {
    if |s| == 0 then [""]
    else if s[0] == sep then [""] + Split(s[1..], sep)
    else
      var rest := Split(s[1..], sep);
      [[s[0]] + rest[0]] + rest[1..]
  }

  /** `Array.prototype.join` with a one-character separator. */
  function JoinWith(parts: seq<string>, sep: char): string
    requires |parts| > 0
  {
    if |parts| == 1 then parts[0] else parts[0] + [sep] + JoinWith(parts[1..], sep)
  }

  /** The property names a path string denotes. */
  function Segments(path: string): (r: seq<string>)
    ensures |r| > 0
    ensures forall i | 0 <= i < |r| :: '.' !in r[i]
    ensures '[' !in path ==> r == Split(path, '.')
  {
    Split(Normalize(path), '.')
  }

  /** The loop of `getObjectProperty`: null as soon as the current value
      is null or lacks the next name, a TypeError when the `in` test meets
      a string, number or boolean. */
  function Walk(v: Value, pieces: seq<string>): (r: Result<Value, Fault>)
    ensures r.Err? ==> r.error == HostTypeError
    decreases |pieces|
  {
    if |pieces| == 0 then Ok(v)
    else if v.Null? then Ok(Null)
    else if !(v.Arr? || v.Obj?) then Err(HostTypeError)
    else if !HasKey(v, pieces[0]) then Ok(Null)
    else Walk(Member(v, pieces[0]), pieces[1..])
  }

  /** `getObjectProperty(root, path)`. */
  function Resolve(root: Value, path: string): (r: Result<Value, Fault>)
    ensures r.Err? ==> r.error == HostTypeError
  {
    Walk(root, Segments(path))
  }

  /** A value holding `leaf` under the nested names `pieces`. */
  function Nest(pieces: seq<string>, leaf: Value): Value {
    if |pieces| == 0 then leaf else Obj(map[pieces[0] := Nest(pieces[1..], leaf)])
  }

  // ---------------------------------------------------------------------
  // Walking

  lemma WalkNull(pieces: seq<string>)
    ensures Walk(Null, pieces) == Ok(Null)
  {
  }

  /** Walking a concatenated path is walking its two halves in turn;
      a null met half-way stays null. */
  lemma {:induction false} WalkAppend(v: Value, ps: seq<string>, qs: seq<string>)
    ensures Walk(v, ps + qs) ==
      (match Walk(v, ps)
       case Err(e) => Err(e)
       case Ok(w) => Walk(w, qs))
    decreases |ps|
  {
    if |ps| == 0 {
      assert ps + qs == qs;
    } else {
      assert (ps + qs)[0] == ps[0] && (ps + qs)[1..] == ps[1..] + qs;
      if v.Null? {
        WalkNull(qs);
      } else if (v.Arr? || v.Obj?) && HasKey(v, ps[0]) {
        WalkAppend(Member(v, ps[0]), ps[1..], qs);
      } else if v.Arr? || v.Obj? {
        WalkNull(qs);
      }
    }
  }

  /** Building a value along a path and reading the path back gives the leaf. */
  lemma {:induction false} WalkNest(pieces: seq<string>, leaf: Value)
    ensures Walk(Nest(pieces, leaf), pieces) == Ok(leaf)
  {
    if |pieces| > 0 {
      WalkNest(pieces[1..], leaf);
    }
  }

  /** A name missing from the object or array reached so far makes the
      whole path null. */
  lemma MissingNameGivesNull(v: Value, ps: seq<string>, k: string, qs: seq<string>, w: Value)
    requires Walk(v, ps) == Ok(w) && (w.Arr? || w.Obj?) && !HasKey(w, k)
    ensures Walk(v, ps + [k] + qs) == Ok(Null)
  {
    WalkAppend(v, ps, [k] + qs);
    assert ps + [k] + qs == ps + ([k] + qs);
  }

  /** A name present in the object or array reached so far is followed
      into its value. */
  lemma PresentNameIsFollowed(v: Value, ps: seq<string>, k: string, qs: seq<string>, w: Value)
    requires Walk(v, ps) == Ok(w) && (w.Arr? || w.Obj?) && HasKey(w, k)
    ensures Walk(v, ps + [k] + qs) == Walk(Member(w, k), qs)
  {
    WalkAppend(v, ps, [k] + qs);
    assert ps + [k] + qs == ps + ([k] + qs);
    assert ([k] + qs)[1..] == qs;
  }

  /** Reaching a string, number or boolean with names left over is a TypeError. */
  lemma PrimitiveThrows(v: Value, ps: seq<string>, k: string, qs: seq<string>)
    requires Walk(v, ps).Ok?
    requires var w := Walk(v, ps).value; w.Str? || w.Num? || w.Bool?
    ensures Walk(v, ps + [k] + qs) == Err(HostTypeError)
  {
    WalkAppend(v, ps, [k] + qs);
    assert ps + [k] + qs == ps + ([k] + qs);
  }

  // ---------------------------------------------------------------------
  // Splitting

  lemma JoinCons(p: string, rest: seq<string>, sep: char)
    requires |rest| > 0
    ensures JoinWith([p] + rest, sep) == p + [sep] + JoinWith(rest, sep)
  {
    assert ([p] + rest)[1..] == rest;
  }

  /** Splitting and re-joining gives back the string. */
  lemma {:induction false} SplitJoin(s: string, sep: char)
    ensures JoinWith(Split(s, sep), sep) == s
  {
    if |s| > 0 {
      SplitJoin(s[1..], sep);
      var rest := Split(s[1..], sep);
      ConsDrop(s);
      if s[0] == sep {
        JoinCons("", rest, sep);
      } else if |rest| > 1 {
        JoinCons([s[0]] + rest[0], rest[1..], sep);
        JoinCons(rest[0], rest[1..], sep);
        assert [rest[0]] + rest[1..] == rest;
        Assoc([s[0]], rest[0], [sep] + JoinWith(rest[1..], sep));
        Assoc(rest[0], [sep], JoinWith(rest[1..], sep));
        Assoc([s[0]] + rest[0], [sep], JoinWith(rest[1..], sep));
      }
    }
  }

  /** No piece of a split holds the separator. */
  lemma {:induction false} SplitPieces(s: string, sep: char)
    ensures forall i | 0 <= i < |Split(s, sep)| :: sep !in Split(s, sep)[i]
  {
    if |s| > 0 {
      SplitPieces(s[1..], sep);
    }
  }

  /** Joining separator-free pieces and splitting again gives back the pieces. */
  lemma {:induction false} JoinSplit(parts: seq<string>, sep: char)
    requires |parts| > 0
    requires forall i | 0 <= i < |parts| :: sep !in parts[i]
    ensures Split(JoinWith(parts, sep), sep) == parts
  {
    if |parts| == 1 {
      SplitWithout(parts[0], sep);
    } else {
      JoinSplit(parts[1..], sep);
      SplitPrefix(parts[0], JoinWith(parts[1..], sep), sep);
    }
  }

  lemma {:induction false} SplitWithout(s: string, sep: char)
    requires sep !in s
    ensures Split(s, sep) == [s]
  {
    if |s| > 0 {
      SplitWithout(s[1..], sep);
      assert [s[0]] + s[1..] == s;
    }
  }

  lemma {:induction false} SplitPrefix(a: string, b: string, sep: char)
    requires sep !in a
    ensures Split(a + [sep] + b, sep) == [a] + Split(b, sep)
  {
    if |a| == 0 {
      assert a + [sep] + b == [sep] + b;
      assert ([sep] + b)[1..] == b;
    } else {
      SplitPrefix(a[1..], b, sep);
      assert (a + [sep] + b)[1..] == a[1..] + [sep] + b;
      assert [a[0]] + a[1..] == a;
    }
  }

  // ---------------------------------------------------------------------
  // Bracket normalisation

  lemma {:induction false} WordRunAppend(a: string, b: string)
    requires |b| == 0 || !IsWordChar(b[0])
    ensures WordRun(a + b) == WordRun(a)
  {
    if |a| > 0 {
      assert (a + b)[1..] == a[1..] + b;
      if IsWordChar(a[0]) {
        WordRunAppend(a[1..], b);
      }
    } else {
      assert a + b == b;
    }
  }

  lemma {:induction false} WordRunOfWord(k: string, b: string)
    requires IsWord(k)
    requires |b| == 0 || !IsWordChar(b[0])
    ensures WordRun(k + b) == |k|
  {
    if |k| > 1 {
      assert (k + b)[1..] == k[1..] + b;
      WordRunOfWord(k[1..], b);
    } else {
      assert (k + b)[1..] == b;
    }
  }

  /** Text without an opening bracket is left alone. */
  lemma {:induction false} NormalizeNoBracket(s: string, t: string)
    requires '[' !in s
    ensures Normalize(s + t) == s + Normalize(t)
  {
    if |s| > 0 {
      assert (s + t)[0] == s[0] && (s + t)[1..] == s[1..] + t;
      NormalizeNoBracket(s[1..], t);
      assert [s[0]] + s[1..] == s;
    } else {
      assert s + t == t;
    }
  }

  lemma NormalizeBracketStep(s: string)
    requires StartsWithBracket(s)
    ensures Normalize(s) == "." + s[1..1 + WordRun(s[1..])] + Normalize(s[2 + WordRun(s[1..])..])
  {
  }

  lemma NormalizePlainStep(s: string)
    requires |s| > 0 && !StartsWithBracket(s)
    ensures Normalize(s) == [s[0]] + Normalize(s[1..])
  {
  }

  /** Appending text that starts with neither a word character nor `]`
      cannot complete or extend a bracket segment begun earlier. */
  lemma BracketStartAppend(x: string, z: string)
    requires |x| > 0
    requires |z| == 0 || (!IsWordChar(z[0]) && z[0] != ']')
    ensures WordRun((x + z)[1..]) == WordRun(x[1..])
    ensures StartsWithBracket(x + z) == StartsWithBracket(x)
  {
    assert (x + z)[1..] == x[1..] + z;
    WordRunAppend(x[1..], z);
  }

  /** Normalisation splits at any point where the rest starts with a
      character that can neither extend nor close a bracket segment. */
  lemma {:induction false} NormalizeAppend(x: string, z: string)
    requires |z| == 0 || (!IsWordChar(z[0]) && z[0] != ']')
    ensures Normalize(x + z) == Normalize(x) + Normalize(z)
    decreases |x|
  {
    if |x| == 0 {
      assert x + z == z;
    } else {
      BracketStartAppend(x, z);
      if StartsWithBracket(x) {
        var w := WordRun(x[1..]);
        NormalizeAppend(x[2 + w..], z);
        NormalizeAppendBracket(x, z);
      } else {
        NormalizeAppend(x[1..], z);
        NormalizeAppendPlain(x, z);
      }
    }
  }

  lemma NormalizeAppendBracket(x: string, z: string)
    requires StartsWithBracket(x) && StartsWithBracket(x + z)
    requires WordRun((x + z)[1..]) == WordRun(x[1..])
    requires Normalize(x[2 + WordRun(x[1..])..] + z) == Normalize(x[2 + WordRun(x[1..])..]) + Normalize(z)
    ensures Normalize(x + z) == Normalize(x) + Normalize(z)
  {
    var w := WordRun(x[1..]);
    var xz := x + z;
    SliceAppend(x, z, 1, 1 + w);
    DropAppend(x, z, 2 + w);
    NormalizeBracketStep(x);
    NormalizeBracketStep(xz);
    Assoc("." + x[1..1 + w], Normalize(x[2 + w..]), Normalize(z));
  }

  lemma NormalizeAppendPlain(x: string, z: string)
    requires |x| > 0 && !StartsWithBracket(x) && !StartsWithBracket(x + z)
    requires Normalize(x[1..] + z) == Normalize(x[1..]) + Normalize(z)
    ensures Normalize(x + z) == Normalize(x) + Normalize(z)
  {
    var xz := x + z;
    DropAppend(x, z, 1);
    NormalizePlainStep(x);
    NormalizePlainStep(xz);
    Assoc([x[0]], Normalize(x[1..]), Normalize(z));
  }

  lemma NormalizeBracketWord(k: string, y: string)
    requires IsWord(k)
    ensures Normalize("[" + k + "]" + y) == "." + k + Normalize(y)
  {
    var b := "[" + k + "]" + y;
    assert b[1..] == k + ("]" + y);
    WordRunOfWord(k, "]" + y);
    assert StartsWithBracket(b);
    assert b[1..1 + |k|] == k && b[2 + |k|..] == y;
    NormalizeBracketStep(b);
  }

  lemma NormalizeDotWord(k: string, y: string)
    requires IsWord(k)
    ensures Normalize("." + k + y) == "." + k + Normalize(y)
  {
    var d := "." + k + y;
    assert '[' !in k by {
      forall i | 0 <= i < |k| ensures k[i] != '[' {
        assert IsWordChar(k[i]);
      }
    }
    assert d[1..] == k + y;
    assert !StartsWithBracket(d);
    NormalizePlainStep(d);
    NormalizeNoBracket(k, y);
  }

  /** `a[k]` and `a.k` name the same property. */
  lemma BracketIsDot(x: string, k: string, y: string)
    requires IsWord(k)
    ensures Segments(x + "[" + k + "]" + y) == Segments(x + "." + k + y)
  {
    var b := "[" + k + "]" + y;
    var d := "." + k + y;
    assert x + "[" + k + "]" + y == x + b;
    assert x + "." + k + y == x + d;
    NormalizeAppend(x, b);
    NormalizeAppend(x, d);
    NormalizeBracketWord(k, y);
    NormalizeDotWord(k, y);
  }

  /** Hence every root resolves `a[k]` and `a.k` alike. */
  lemma ResolveBracketIsDot(root: Value, x: string, k: string, y: string)
    requires IsWord(k)
    ensures Resolve(root, x + "[" + k + "]" + y) == Resolve(root, x + "." + k + y)
  {
    BracketIsDot(x, k, y);
  }

  /** A path of plain names separated by dots denotes exactly those names. */
  lemma DottedSegments(parts: seq<string>)
    requires |parts| > 0
    requires forall i | 0 <= i < |parts| :: '.' !in parts[i] && '[' !in parts[i]
    ensures Segments(JoinWith(parts, '.')) == parts
  {
    NoBracketInJoin(parts);
    NormalizeNoBracket(JoinWith(parts, '.'), "");
    assert JoinWith(parts, '.') + "" == JoinWith(parts, '.');
    JoinSplit(parts, '.');
  }

  lemma {:induction false} NoBracketInJoin(parts: seq<string>)
    requires |parts| > 0
    requires forall i | 0 <= i < |parts| :: '[' !in parts[i]
    ensures '[' !in JoinWith(parts, '.')
  {
    if |parts| > 1 {
      NoBracketInJoin(parts[1..]);
    }
  }
}

=== FILE: pipeline.dfy ===
/** `parse`, `run`, `hasNext` and `next` (lib/instafeed.js): what one
    JSONP response does to an `Instafeed` instance, and the pagination
    cursor that links one request to the next. */
module Pipeline {
  import opened Wrappers
  import opened Js
  import opened Ordering
  import opened ItemRenderer
  import opened Options

  // ---------------------------------------------------------------------
  // The instance

  /** The callbacks the instance was given. Functions are not JSON values,
      so they come apart from the options object; `filter` is a pure
      predicate and the others are recorded as events when set. */
  datatype Hooks = Hooks(filter: Option<Value -> bool>, onBefore: bool, onAfter: bool, onSuccess: bool, onError: bool)

  /** A constructed instance: its settings, its callbacks and `nextUrl`. */
  datatype Feed = Feed(settings: Settings, hooks: Hooks, nextUrl: string)

  /** `new Instafeed(options)`: an instance exists exactly when the options
      are accepted; it has no next page yet, so its first `run` requests
      the configured URL. */
  function NewFeed(options: Slot, uuid: string, encode: string -> string, hooks: Hooks): (r: Result<Feed, string>)
    ensures r.Ok? <==> ParseOptions(options, uuid, encode).Ok?
    ensures !Truthy(options) ==> r == Err(MissingOptions)
    ensures r.Ok? ==> !HasNext(r.value) && r.value.hooks == hooks
    ensures r.Ok? ==> RunRequest(r.value, r.value.nextUrl, Browser(true, true)) == Ok(r.value.settings.url)
  {
    var settings :- ParseOptions(options, uuid, encode);
    Ok(Feed(settings, hooks, ""))
  }

  /** `hasNext()`: whether the cursor holds a URL. */
  predicate HasNext(f: Feed)
    ensures HasNext(f) <==> f.nextUrl != ""
  {
    |f.nextUrl| > 0
  }

  /** What the page offers `run`: whether `window` and `document` exist. */
  datatype Browser = Browser(hasWindow: bool, hasDocument: bool)

  const NoWindow := "InstafeedRunError: No window object available."
  const NoDocument := "InstafeedRunError: No document object available."

  /** `run(nextUrl)`: the URL of the script it inserts, `nextUrl || url`. */
  function RunRequest(f: Feed, nextUrl: string, b: Browser): (r: Result<string, string>)
    ensures r.Err? <==> !b.hasWindow || !b.hasDocument
    ensures r.Err? ==> r.error == if b.hasWindow then NoDocument else NoWindow
    ensures r.Ok? ==> r.value == if nextUrl == "" then f.settings.url else nextUrl
  {
    if !b.hasWindow then Err(NoWindow)
    else if !b.hasDocument then Err(NoDocument)
    else if nextUrl != "" then Ok(nextUrl)
    else Ok(f.settings.url)
  }

  /** `next()`: the state afterwards and, when the cursor was set, what
      `run` did with it. With a cursor set it requests exactly the cursor
      and clears it; without one it does nothing; when `run` throws nothing
      changes. */
  function Next(f: Feed, b: Browser): (r: (Feed, Option<Result<string, string>>))
    ensures !HasNext(f) ==> r == (f, None)
    ensures HasNext(f) && b.hasWindow && b.hasDocument ==>
      && r.1 == Some(Ok(f.nextUrl))
      && !HasNext(r.0)
      && r.0 == f.(nextUrl := "")
    ensures HasNext(f) && !(b.hasWindow && b.hasDocument) ==>
      r.0 == f && r.1.Some? && r.1.value.Err?
  {
    if !HasNext(f) then (f, None)
    else
      match RunRequest(f, f.nextUrl, b)
      case Err(e) => (f, Some(Err(e)))
      case Ok(u) => (f.(nextUrl := ""), Some(Ok(u)))
  }

  /** A second `next()` right after a successful one does nothing. */
  lemma NextTwice(f: Feed, b: Browser)
    requires b.hasWindow && b.hasDocument
    ensures Next(Next(f, b).0, b) == (Next(f, b).0, None)
  {
  }

  // ---------------------------------------------------------------------
  // The envelope

  const InvalidResponse := "InstafeedParseError: Invalid response from Instagram."
  const NoTargetMessage := "InstafeedParseError: No target element found."
  const ConnectionFailed := "InstafeedConnectionError: Connection to Instagram failed."

  function ApiError(kind: string, message: string): string {
    "InstafeedInstagramAPIError: \"" + kind + ": " + message + "\"."
  }

  /** Why `parse` stopped: a fault of the transform, or an error thrown
      with a message of its own. */
  datatype Stop = Thrown(fault: Fault) | Reported(message: string)

  /** `response.meta`, read only once `response` is known to be truthy. */
  function Meta(response: Slot): Slot {
    Prop(response, "meta")
  }

  /** The first two checks of `parse`. The envelope passes exactly when
      `meta.code` is the number 200; a missing or non-numeric code is the
      generic error, and another code is reported with the API's own type
      and message when both are strings. */
  function CheckEnvelope(response: Slot): (r: Option<Stop>)
    ensures r.None? <==>
      Truthy(response) && Truthy(Meta(response)) && Prop(Meta(response), "code") == Some(Num(200))
    ensures r == Some(Thrown(Invalid)) <==>
      !Truthy(response) || !Truthy(Meta(response)) || !IsNumber(Prop(Meta(response), "code"))
    ensures r.Some? && r.value.Reported? ==>
      var meta := Meta(response);
      && IsNumber(Prop(meta, "code")) && Prop(meta, "code") != Some(Num(200))
      && r.value.message ==
           if IsString(Prop(meta, "error_type")) && IsString(Prop(meta, "error_message"))
           then ApiError(Prop(meta, "error_type").value.s, Prop(meta, "error_message").value.s)
           else ConnectionFailed
  {
    var meta := Meta(response);
    if !Truthy(response) || !Truthy(meta) || !IsNumber(Prop(meta, "code")) then Some(Thrown(Invalid))
    else if Prop(meta, "code") != Some(Num(200)) then
      var kind := Prop(meta, "error_type");
      var message := Prop(meta, "error_message");
      if IsString(kind) && IsString(message) then Some(Reported(ApiError(kind.value.s, message.value.s)))
      else Some(Reported(ConnectionFailed))
    else None
  }

  // ---------------------------------------------------------------------
  // Ordering, filtering and rendering the data

  /** `response.data` reordered as the `sort` setting asks. A non-string
      `sort` that passed validation has no `split`. Only the shuffle of an
      empty array never returns. */
  function Arrange(sort: SortOption, items: seq<Value>, random: nat -> Unit): (r: Result<seq<Value>, Fault>)
    ensures r.Ok? ==> multiset(r.value) == multiset(items)
    ensures r == Err(Loops) <==> sort == Named(Shuffled) && |items| == 0
    ensures r.Err? ==> r.error in {Loops, Invalid, HostTypeError}
  {
    match sort
    case Coerced(_) => Err(HostTypeError)
    case Named(order) =>
      match order
      case Unsorted => Ok(items)
      case Shuffled => Shuffle(items, random)
      case Most(m) => SortByMetric(items, m, false)
      case Least(m) => SortByMetric(items, m, true)
  }

  /** The items `filter` keeps (`delete response.data[i]` for the others,
      and `forEach` skips the holes). */
  function Keep(items: seq<Value>, filter: Option<Value -> bool>): (r: seq<Value>)
    ensures |r| <= |items|
  {
    if |items| == 0 then []
    else
      var rest := Keep(items[1..], filter);
      if filter.None? || filter.value(items[0]) then [items[0]] + rest else rest
  }

  /** The markup of `response.data`: ordered, filtered, then rendered.
      Falsy data is the generic error, and the page never returns exactly
      when it shuffles an empty array. */
  function PageMarkup(s: Settings, hooks: Hooks, response: Slot, random: nat -> Unit, fuel: nat): (r: Result<string, Fault>)
    ensures !Truthy(Prop(response, "data")) ==> r == Err(Invalid)
    ensures Truthy(Prop(response, "data")) && !Prop(response, "data").value.Arr? ==> r == Err(HostTypeError)
    ensures r == Err(Loops) <==> s.sort == Named(Shuffled) && Prop(response, "data") == Some(Arr([]))
    ensures r.Err? ==> r.error in {Loops, Invalid, HostTypeError, OutOfFuel}
  {
    var data := Prop(response, "data");
    if !Truthy(data) then Err(Invalid)
    else if !data.value.Arr? then Err(HostTypeError)
    else
      var arranged :- Arrange(s.sort, data.value.items, random);
      RenderAll(s.render, Keep(arranged, hooks.filter), fuel)
  }

  // ---------------------------------------------------------------------
  // One response

  /** A callback as `parse` invokes it. `Failed(None)` carries the engine's
      own TypeError message. */
  datatype Event = BeforeInsert | AfterInsert | Succeeded | Failed(message: Option<string>)

  /** The outside world during one `parse`: the `k`-th call to
      `Math.random` gives `random(k)`, whether the target element exists,
      and the step budget of template expansion. */
  datatype Env = Env(random: nat -> Unit, hasTarget: bool, fuel: nat)

  /** What one call of `parse` does: when it returns, the callbacks it made
      in order, the markup it appended to the target, and the cursor after
      it. It may also never return (the shuffle of an empty array), or a
      template may outrun the step budget. */
  datatype Outcome =
    | Returned(events: seq<Event>, inserted: Option<string>, cursor: string)
    | Diverges
    | Unfinished

  /** `onError`'s argument: the error's message, or the generic parse
      message when the error has none. */
  function ErrorMessage(stop: Stop): Option<string> {
    match stop
    case Reported(m) => Some(m)
    case Thrown(f) =>
      match f
      case Invalid => Some(InvalidResponse)
      case NoTarget => Some(NoTargetMessage)
      case _ => None
  }

  /** `pagination.next_url` when it is a string, else the old cursor. A
      string `next_url` can only sit in an object, so the truthiness test
      on `pagination` never decides anything. */
  function NextCursor(current: string, response: Slot): (r: string)
    ensures var next := Prop(Prop(response, "pagination"), "next_url");
      IsString(next) ==> next == Some(Str(r))
    ensures !IsString(Prop(Prop(response, "pagination"), "next_url")) ==> r == current
  {
    var pagination := Prop(response, "pagination");
    if Truthy(pagination) && IsString(Prop(pagination, "next_url")) then Prop(pagination, "next_url").value.s
    else current
  }

  function IfSet(on: bool, e: Event): seq<Event> {
    if on then [e] else []
  }

  /** The `catch` block. */
  function Fail(f: Feed, events: seq<Event>, stop: Stop): Outcome {
    Returned(events + IfSet(f.hooks.onError, Failed(ErrorMessage(stop))), None, f.nextUrl)
  }

  /** The tail of the `try` block. */
  function Succeed(f: Feed, events: seq<Event>, inserted: Option<string>, response: Slot): Outcome {
    Returned(events + IfSet(f.hooks.onSuccess, Succeeded), inserted, NextCursor(f.nextUrl, response))
  }

  /** `parse(response)`. It never returns exactly when it shuffles an
      empty page; it inserts markup only outside `mock` mode and into an
      existing target; and the cursor it leaves is the old one or a string
      `next_url` of the response. */
  function Parse(f: Feed, response: Slot, env: Env): (r: Outcome)
    ensures r.Diverges? <==>
      && CheckEnvelope(response).None? && !f.settings.mock
      && f.settings.sort == Named(Shuffled) && Prop(response, "data") == Some(Arr([]))
    ensures r.Unfinished? ==> CheckEnvelope(response).None? && !f.settings.mock
    ensures r.Returned? && r.inserted.Some? ==> env.hasTarget && !f.settings.mock
    ensures r.Returned? ==>
      r.cursor == f.nextUrl || Prop(Prop(response, "pagination"), "next_url") == Some(Str(r.cursor))
  {
    match CheckEnvelope(response)
    case Some(stop) => Fail(f, [], stop)
    case None =>
      if f.settings.mock then Succeed(f, [], None, response)
      else
        match PageMarkup(f.settings, f.hooks, response, env.random, env.fuel)
        case Err(Loops) => Diverges
        case Err(OutOfFuel) => Unfinished
        case Err(e) => Fail(f, [], Thrown(e))
        case Ok(html) =>
          var before := IfSet(f.hooks.onBefore, BeforeInsert);
          if !env.hasTarget then Fail(f, before, Thrown(NoTarget))
          else Succeed(f, before + IfSet(f.hooks.onAfter, AfterInsert), Some(html), response)
  }

  // ---------------------------------------------------------------------
  // Properties of one response

  /** A response whose envelope fails reports its error and changes
      nothing else. */
  lemma EnvelopeFailure(f: Feed, response: Slot, env: Env)
    requires CheckEnvelope(response).Some?
    ensures Parse(f, response, env) ==
      Returned(IfSet(f.hooks.onError, Failed(ErrorMessage(CheckEnvelope(response).value))), None, f.nextUrl)
  {
  }

  /** In `mock` mode a good envelope skips the data entirely but still moves
      the cursor and reports success. */
  lemma MockSuccess(f: Feed, response: Slot, env: Env)
    requires CheckEnvelope(response).None? && f.settings.mock
    ensures Parse(f, response, env) ==
      Returned(IfSet(f.hooks.onSuccess, Succeeded), None, NextCursor(f.nextUrl, response))
  {
  }

  /** A page that fails validation inserts nothing, never calls `onBefore`,
      leaves the cursor alone and reports the generic parse message. */
  lemma InvalidPage(f: Feed, response: Slot, env: Env)
    requires CheckEnvelope(response).None? && !f.settings.mock
    requires PageMarkup(f.settings, f.hooks, response, env.random, env.fuel) == Err(Invalid)
    ensures Parse(f, response, env) ==
      Returned(IfSet(f.hooks.onError, Failed(Some(InvalidResponse))), None, f.nextUrl)
    ensures BeforeInsert !in Parse(f, response, env).events
  {
  }

  /** A rendered page goes into the target between `onBefore` and
      `onAfter`, then the cursor moves and `onSuccess` runs. */
  lemma RenderedPage(f: Feed, response: Slot, env: Env, html: string)
    requires CheckEnvelope(response).None? && !f.settings.mock && env.hasTarget
    requires PageMarkup(f.settings, f.hooks, response, env.random, env.fuel) == Ok(html)
    ensures Parse(f, response, env) ==
      Returned(IfSet(f.hooks.onBefore, BeforeInsert) + IfSet(f.hooks.onAfter, AfterInsert)
                 + IfSet(f.hooks.onSuccess, Succeeded),
               Some(html), NextCursor(f.nextUrl, response))
  {
  }

  /** Without the target element `onBefore` has already run, nothing is
      inserted and the cursor stays. */
  lemma MissingTarget(f: Feed, response: Slot, env: Env, html: string)
    requires CheckEnvelope(response).None? && !f.settings.mock && !env.hasTarget
    requires PageMarkup(f.settings, f.hooks, response, env.random, env.fuel) == Ok(html)
    ensures Parse(f, response, env) ==
      Returned(IfSet(f.hooks.onBefore, BeforeInsert) + IfSet(f.hooks.onError, Failed(Some(NoTargetMessage))),
               None, f.nextUrl)
  {
  }

  /** The cursor moves only when the whole response succeeded, and only to
      a string `next_url`; markup is inserted only on success too. */
  lemma CursorOnlyOnSuccess(f: Feed, response: Slot, env: Env)
    requires Parse(f, response, env).Returned?
    ensures var o := Parse(f, response, env);
      (o.cursor != f.nextUrl || o.inserted.Some?) ==>
        && CheckEnvelope(response).None?
        && (f.settings.mock || (env.hasTarget && PageMarkup(f.settings, f.hooks, response, env.random, env.fuel).Ok?))
    ensures var o := Parse(f, response, env);
      o.cursor != f.nextUrl ==> Prop(Prop(response, "pagination"), "next_url") == Some(Str(o.cursor))
  {
  }

  /** Parsing never raises: every error becomes at most one `onError` call,
      the last callback made. */
  lemma ErrorIsLast(f: Feed, response: Slot, env: Env)
    requires Parse(f, response, env).Returned?
    ensures var ev := Parse(f, response, env).events;
      forall i | 0 <= i < |ev| && ev[i].Failed? :: i == |ev| - 1
  {
  }

  // ---------------------------------------------------------------------
  // Properties of the data steps

  /** `filter` keeps exactly the items it accepts; `KeepAppend` gives their order. */
  lemma {:induction false} KeepSpec(items: seq<Value>, filter: Option<Value -> bool>)
    ensures filter.None? ==> Keep(items, filter) == items
    ensures forall x | x in Keep(items, filter) :: x in items && (filter.None? || filter.value(x))
    ensures forall x | x in items && (filter.None? || filter.value(x)) :: x in Keep(items, filter)
  {
    if |items| > 0 {
      KeepSpec(items[1..], filter);
      assert items == [items[0]] + items[1..];
    }
  }

  /** Filtering two runs of items one after the other filters each. */
  lemma {:induction false} KeepAppend(xs: seq<Value>, ys: seq<Value>, filter: Option<Value -> bool>)
    ensures Keep(xs + ys, filter) == Keep(xs, filter) + Keep(ys, filter)
  {
    if |xs| == 0 {
      assert xs + ys == ys;
    } else {
      assert (xs + ys)[0] == xs[0] && (xs + ys)[1..] == xs[1..] + ys;
      KeepAppend(xs[1..], ys, filter);
    }
  }

  /** A kept item that lacks a required field fails the page with the
      generic error, unless an earlier kept item failed first. */
  lemma MissingFieldFailsPage(s: Settings, hooks: Hooks, response: Slot, random: nat -> Unit, fuel: nat,
                              arranged: seq<Value>, k: nat)
    requires Truthy(Prop(response, "data")) && Prop(response, "data").value.Arr?
    requires Arrange(s.sort, Prop(response, "data").value.items, random) == Ok(arranged)
    requires k < |Keep(arranged, hooks.filter)|
    requires var d := Keep(arranged, hooks.filter)[k]; !d.Null? && !HasRequiredFields(d)
    requires forall i | 0 <= i < k :: RenderItem(s.render, Keep(arranged, hooks.filter)[i], fuel).Ok?
    ensures PageMarkup(s, hooks, response, random, fuel) == Err(Invalid)
  {
    var kept := Keep(arranged, hooks.filter);
    hide RenderItem, RenderAll;
    assert RenderAll(s.render, kept, fuel).Err?;
    var j :| 0 <= j < |kept| && RenderItem(s.render, kept[j], fuel) == Err(RenderAll(s.render, kept, fuel).error)
      && forall i | 0 <= i < j :: RenderItem(s.render, kept[i], fuel).Ok?;
    assert j == k;
  }

  /** A `sort` option that passed validation without being a string fails
      every non-mock page with data, with the engine's TypeError. */
  lemma CoercedSortFails(f: Feed, response: Slot, env: Env)
    requires f.settings.sort.Coerced? && !f.settings.mock
    requires CheckEnvelope(response).None?
    requires Truthy(Prop(response, "data")) && Prop(response, "data").value.Arr?
    ensures Parse(f, response, env) == Returned(IfSet(f.hooks.onError, Failed(None)), None, f.nextUrl)
  {
  }

  /** With no sort and no filter the page is the items rendered in their
      original order. */
  lemma UnsortedUnfiltered(s: Settings, hooks: Hooks, response: Slot, random: nat -> Unit, fuel: nat)
    requires s.sort == Named(Unsorted) && hooks.filter.None?
    requires Truthy(Prop(response, "data")) && Prop(response, "data").value.Arr?
    ensures PageMarkup(s, hooks, response, random, fuel) == RenderAll(s.render, Prop(response, "data").value.items, fuel)
  {
    KeepSpec(Prop(response, "data").value.items, hooks.filter);
  }
}

=== FILE: projection.dfy ===
/** How one image or video resolution of a feed item becomes template
    values (lib/instafeed.js): its checked fields, its source with the
    scheme optionally stripped, and its orientation. */
module Projection {
  import opened Wrappers
  import opened Js

  // ---------------------------------------------------------------------
  // Orientation

  datatype Orientation = Square | Landscape | Portrait

  /** `w === h ? "square" : (w > h ? "landscape" : "portrait")`. */
  function OrientationOf(width: int, height: int): (o: Orientation)
    ensures o == Square <==> width == height
    ensures o == Landscape <==> width > height
    ensures o == Portrait <==> width < height
  {
    if width == height then Square
    else if width > height then Landscape
    else Portrait
  }

  function OrientationName(o: Orientation): string {
    match o
    case Square => "square"
    case Landscape => "landscape"
    case Portrait => "portrait"
  }

  /** The three names are distinct, so the name tells the orientation. */
  lemma OrientationNameInjective(o: Orientation, p: Orientation)
    ensures OrientationName(o) == OrientationName(p) <==> o == p
  {
    if o != p {
      assert OrientationName(o)[0] != OrientationName(p)[0];
    }
  }

  /** Turning a picture on its side swaps landscape and portrait. */
  lemma OrientationTranspose(width: int, height: int)
    ensures OrientationOf(height, width) ==
      match OrientationOf(width, height)
      case Square => Square
      case Landscape => Portrait
      case Portrait => Landscape
  {
  }

  // ---------------------------------------------------------------------
  // Scheme stripping: `url.replace(/^https?:/, "")`

  predicate StartsWith(s: string, p: string) {
    |p| <= |s| && s[..|p|] == p
  }

  /** Removes one leading `https:` or `http:`; the greedy `s?` tries the
      longer prefix first. */
  function StripScheme(u: string): (r: string)
    ensures r == u || "http:" + r == u || "https:" + r == u
    ensures |r| <= |u| && u[|u| - |r|..] == r
  {
    if StartsWith(u, "https:") then u[6..]
    else if StartsWith(u, "http:") then u[5..]
    else u
  }

  /** The source URL a template sees: stripped only when `relativeScheme` is set. */
  function Source(url: string, relative: bool): (r: string)
    ensures !relative ==> r == url
    ensures |r| <= |url| && url[|url| - |r|..] == r
  {
    if relative then StripScheme(url) else url
  }

  lemma StripHttp(r: string)
    ensures StripScheme("http:" + r) == r
  {
    assert ("http:" + r)[5..] == r;
    assert ("http:" + r)[4] == ':';
  }

  lemma StripHttps(r: string)
    ensures StripScheme("https:" + r) == r
  {
    assert ("https:" + r)[..6] == "https:";
    assert ("https:" + r)[6..] == r;
  }

  /** A URL without either scheme prefix is left alone. */
  lemma StripNoScheme(u: string)
    requires !StartsWith(u, "http:") && !StartsWith(u, "https:")
    ensures StripScheme(u) == u
  {
  }

  // ---------------------------------------------------------------------
  // Assets

  /** A checked resolution entry: `url` is a string, `width` and `height` numbers. */
  datatype Asset = Asset(url: string, width: int, height: int)

  /** `!o || typeof o.url !== "string" || typeof o.width !== "number" ||
      typeof o.height !== "number"` fails with a plain `Error`; otherwise
      the three fields. A truthy `o` is never null, so no read throws. */
  function ReadAsset(o: Slot): (r: Result<Asset, Fault>)
    ensures r.Err? ==> r.error == Invalid
    ensures r.Ok? <==>
      Truthy(o) && IsString(Prop(o, "url")) && IsNumber(Prop(o, "width")) && IsNumber(Prop(o, "height"))
    ensures r.Ok? ==>
      && Prop(o, "url") == Some(Str(r.value.url))
      && Prop(o, "width") == Some(Num(r.value.width))
      && Prop(o, "height") == Some(Num(r.value.height))
  {
    if !Truthy(o) || !IsString(Prop(o, "url")) || !IsNumber(Prop(o, "width")) || !IsNumber(Prop(o, "height")) then
      Err(Invalid)
    else
      Ok(Asset(Prop(o, "url").value.s, Prop(o, "width").value.n, Prop(o, "height").value.n))
  }

  /** The JSON object an API response carries for an asset. */
  function AssetObject(a: Asset, extra: map<string, Value>): Value {
    Obj(extra + map["url" := Str(a.url), "width" := Num(a.width), "height" := Num(a.height)])
  }

  /** Reading an asset object gives back the asset, whatever else it holds. */
  lemma ReadAssetObject(a: Asset, extra: map<string, Value>)
    ensures ReadAsset(Some(AssetObject(a, extra))) == Ok(a)
  {
  }

  /** The names under which an asset's values are stored. */
  datatype Keys = Keys(source: string, width: string, height: string, orientation: string)

  const PlainKeys := Keys("source", "width", "height", "orientation")
  const PreviewKeys := Keys("previewSource", "previewWidth", "previewHeight", "previewOrientation")

  /** The four template values of an asset, stored under `k`. */
  function Project(a: Asset, relative: bool, k: Keys): map<string, Value> {
    map[k.source := Str(Source(a.url, relative)),
        k.width := Num(a.width),
        k.height := Num(a.height),
        k.orientation := Str(OrientationName(OrientationOf(a.width, a.height)))]
  }

  /** With distinct names, each value sits under its own name: the source is
      the URL or the URL without its scheme, the size is copied, and the
      orientation names the shape. */
  lemma ProjectValues(a: Asset, relative: bool, k: Keys)
    requires k == PlainKeys || k == PreviewKeys
    ensures Project(a, relative, k).Keys == {k.source, k.width, k.height, k.orientation}
    ensures Project(a, relative, k)[k.width] == Num(a.width)
    ensures Project(a, relative, k)[k.height] == Num(a.height)
    ensures Project(a, relative, k)[k.source] == Str(Source(a.url, relative))
    ensures var s := Project(a, relative, k)[k.source];
      s.Str? && (s.s == a.url || "http:" + s.s == a.url || "https:" + s.s == a.url)
    ensures !relative ==> Project(a, relative, k)[k.source] == Str(a.url)
    ensures Project(a, relative, k)[k.orientation] == Str(OrientationName(OrientationOf(a.width, a.height)))
    ensures Project(a, relative, k)[k.orientation] == Str("square") <==> a.width == a.height
    ensures Project(a, relative, k)[k.orientation] == Str("landscape") <==> a.width > a.height
    ensures Project(a, relative, k)[k.orientation] == Str("portrait") <==> a.width < a.height
  {
    var o := OrientationOf(a.width, a.height);
    OrientationNameInjective(o, Square);
    OrientationNameInjective(o, Landscape);
    OrientationNameInjective(o, Portrait);
  }
}

=== FILE: seq_facts.dfy ===
/** Small facts about sequence concatenation and slicing, kept apart so
    that each is proved once in an empty context. */
module SeqFacts {

  lemma Assoc<T>(a: seq<T>, b: seq<T>, c: seq<T>)
    ensures a + (b + c) == (a + b) + c
  {
  }

  lemma DropAppend<T>(x: seq<T>, z: seq<T>, i: nat)
    requires i <= |x|
    ensures (x + z)[i..] == x[i..] + z
  {
  }

  lemma SliceAppend<T>(x: seq<T>, z: seq<T>, i: nat, j: nat)
    requires i <= j <= |x|
    ensures (x + z)[i..j] == x[i..j]
  {
  }

  lemma DropPrefix<T>(a: seq<T>, s: seq<T>, i: nat)
    requires i <= |s|
    ensures (a + s)[|a| + i..] == s[i..]
  {
  }

  lemma SlicePrefix<T>(a: seq<T>, s: seq<T>, i: nat, j: nat)
    requires i <= j <= |s|
    ensures (a + s)[|a| + i..|a| + j] == s[i..j]
  {
  }

  lemma ConsDrop<T>(x: seq<T>)
    requires |x| > 0
    ensures [x[0]] + x[1..] == x
  {
  }
}

=== FILE: template_engine.dfy ===
/** `parseTemplate` (lib/instafeed.js): repeatedly replaces the leftmost
    `{{path}}` placeholder of a template with the value the path resolves
    to in a value map, until no placeholder is left. */
module TemplateEngine {
  import opened Wrappers
  import opened Js
  import opened PathResolver
  import opened SeqFacts

  // ---------------------------------------------------------------------
  // The placeholder pattern `\{\{(\w+(?:\.\w+|\[\w+\])*)\}\}`

  /** The end of the run of word characters starting at index `i` of `t`. */
  function WordEnd(t: string, i: nat): (j: nat)
    requires i <= |t|
    ensures i <= j <= |t|
    decreases |t| - i
  {
    if i < |t| && IsWordChar(t[i]) then WordEnd(t, i + 1) else i
  }

  /** The end of one `.word` or `[word]` group starting at `i`, or `i`
      itself when none starts there. */
  function GroupEnd(t: string, i: nat): (j: nat)
    requires i <= |t|
    ensures i <= j <= |t|
  {
    if i < |t| && t[i] == '.' && WordEnd(t, i + 1) > i + 1 then
      WordEnd(t, i + 1)
    else if i < |t| && t[i] == '[' && WordEnd(t, i + 1) > i + 1
            && WordEnd(t, i + 1) < |t| && t[WordEnd(t, i + 1)] == ']' then
      WordEnd(t, i + 1) + 1
    else i
  }

  /** The end of the run of `.word` and `[word]` groups starting at `i`. */
  function GroupsEnd(t: string, i: nat): (j: nat)
    requires i <= |t|
    ensures i <= j <= |t|
    decreases |t| - i
  {
    var j := GroupEnd(t, i);
    if j == i then i else GroupsEnd(t, j)
  }

  /** The end of the path expression `\w+(?:\.\w+|\[\w+\])*` starting at
      `i`, or `i` itself when none starts there. Greedy matching is exact
      here: a shorter path expression is always followed by a word
      character, `.`, `[` or `]`, never by the closing `}`. */
  function PathEnd(t: string, i: nat): (j: nat)
    requires i <= |t|
    ensures i <= j <= |t|
  {
    var w := WordEnd(t, i);
    if w == i then i else GroupsEnd(t, w)
  }

  /** A placeholder `{{path}}` starts at position `p` of `t`. */
  predicate PlaceholderAt(t: string, p: nat) {
    p + 2 <= |t| && t[p] == '{' && t[p + 1] == '{'
    && var e := PathEnd(t, p + 2);
       e > p + 2 && e + 2 <= |t| && t[e] == '}' && t[e + 1] == '}'
  }

  predicate NoPlaceholder(t: string) {
    forall p | 0 <= p < |t| :: !PlaceholderAt(t, p)
  }

  /** The position of the leftmost placeholder at or after `p`, as a
      non-global regular expression finds it; `|t|` when there is none. */
  function FindFrom(t: string, p: nat): (r: nat)
    requires p <= |t|
    ensures p <= r <= |t|
    ensures r < |t| ==> PlaceholderAt(t, r)
    decreases |t| - p
  {
    if p == |t| then p
    else if PlaceholderAt(t, p) then p
    else FindFrom(t, p + 1)
  }

  /** `FindFrom` finds a placeholder, and none is skipped. */
  lemma {:induction false} FindFromSpec(t: string, p: nat)
    requires p <= |t|
    ensures FindFrom(t, p) < |t| ==> PlaceholderAt(t, FindFrom(t, p))
    ensures forall q | p <= q < FindFrom(t, p) :: !PlaceholderAt(t, q)
    decreases |t| - p
  {
    if p < |t| && !PlaceholderAt(t, p) {
      FindFromSpec(t, p + 1);
    }
  }

  /** What a resolved value contributes to the text: null becomes empty. */
  function Display(v: Value): string {
    if v.Null? then "" else ToStr(v)
  }

  /** A template split at its leftmost placeholder, or found clean. */
  datatype Scan = Clean | Found(before: string, path: string, after: string)

  /** `pattern.test(template)` and `template.match(pattern)[1]`: a template
      is clean exactly when it has no placeholder; otherwise the leftmost
      placeholder is cut out of it, its path being the longest path
      expression between the braces. */
  function Leftmost(t: string): (r: Scan)
    ensures r.Clean? <==> NoPlaceholder(t)
    ensures r.Found? ==>
      var p := |r.before|;
      && PlaceholderAt(t, p)
      && PathEnd(t, p + 2) == p + 2 + |r.path|
      && (forall q | 0 <= q < p :: !PlaceholderAt(t, q))
      && t == r.before + "{{" + r.path + "}}" + r.after
  {
    FindFromSpec(t, 0);
    var p := FindFrom(t, 0);
    if p == |t| then Clean
    else
      var e := PathEnd(t, p + 2);
      assert t == t[..p] + "{{" + t[p + 2..e] + "}}" + t[e + 2..];
      Found(t[..p], t[p + 2..e], t[e + 2..])
  }

  /** Where the pieces of a found placeholder sit in the template. */
  lemma LeftmostParts(t: string)
    requires Leftmost(t).Found?
    ensures var r := Leftmost(t);
      var p := |r.before|;
      var e := p + 2 + |r.path|;
      && FindFrom(t, 0) == p && p + 2 <= e && e + 2 <= |t| && PathEnd(t, p + 2) == e
      && r.before == t[..p] && r.path == t[p + 2..e] && r.after == t[e + 2..]
  {
    hide WordEnd, GroupsEnd;
    FindFromSpec(t, 0);
  }

  /** How a placeholder path becomes text: resolved against the value map,
      with null shown as empty. */
  function Lookup(values: Value, path: string): (r: Result<string, Fault>)
    ensures r.Err? ==> r.error == HostTypeError
  {
    var v :- Resolve(values, path);
    Ok(Display(v))
  }

  /** The substitution loop of `parseTemplate`, for any way `look` of
      turning a path into text, given `fuel` substitution steps. The loop in
      the source need not terminate (a substituted value can itself form a
      placeholder); running out of steps is reported as `OutOfFuel`. */
  function RenderWith(t: string, look: string -> Result<string, Fault>, fuel: nat): (r: Result<string, Fault>)
    ensures r.Ok? ==> NoPlaceholder(r.value)
    ensures NoPlaceholder(t) ==> r == Ok(t)
    decreases fuel
  {
    match Leftmost(t)
    case Clean => Ok(t)
    case Found(before, path, after) =>
      if fuel == 0 then Err(OutOfFuel)
      else
        var d :- look(path);
        RenderWith(before + d + after, look, fuel - 1)
  }

  /** `parseTemplate(t, values)` given `fuel` substitution steps: it
      leaves no placeholder behind, returns a template without placeholders
      as it is, and fails only on a path through a primitive or when it
      runs out of steps. */
  function Render(t: string, values: Value, fuel: nat): (r: Result<string, Fault>)
    ensures r.Ok? ==> NoPlaceholder(r.value)
    ensures NoPlaceholder(t) ==> r == Ok(t)
    ensures r.Err? ==> r.error in {HostTypeError, OutOfFuel}
  {
    var look := p => Lookup(values, p);
    RenderWithSpec(t, look, fuel, {HostTypeError});
    RenderWith(t, look, fuel)
  }

  /** Unfolds one turn of the substitution loop, for the proofs below. */
  lemma RenderStep(t: string, look: string -> Result<string, Fault>, fuel: nat)
    ensures RenderWith(t, look, fuel) ==
      match Leftmost(t)
      case Clean => Ok(t)
      case Found(b, x, c) =>
        if fuel == 0 then Err(OutOfFuel)
        else if look(x).Err? then Err(look(x).error)
        else RenderWith(b + look(x).value + c, look, fuel - 1)
  {
  }

  /** The substitution loop fails only where `look` fails or the steps
      run out. */
  lemma {:induction false} RenderWithSpec(t: string, look: string -> Result<string, Fault>, fuel: nat, errs: set<Fault>)
    requires forall p :: look(p).Err? ==> look(p).error in errs
    ensures RenderWith(t, look, fuel).Err? ==>
      RenderWith(t, look, fuel).error in errs + {OutOfFuel}
    decreases fuel
  {
    hide RenderWith, NoPlaceholder, PlaceholderAt;
    RenderStep(t, look, fuel);
    match Leftmost(t)
    case Clean =>
    case Found(before, path, after) =>
      if fuel > 0 && look(path).Ok? {
        RenderWithSpec(before + look(path).value + after, look, fuel - 1, errs);
      }
  }

  // ---------------------------------------------------------------------
  // A reference definition: templates as literal text and holes

  datatype Piece = Lit(text: string) | Hole(path: string)

  function Flatten(ps: seq<Piece>): string {
    if |ps| == 0 then ""
    else
      match ps[0]
      case Lit(a) => a + Flatten(ps[1..])
      case Hole(x) => "{{" + x + "}}" + Flatten(ps[1..])
  }

  /** `x` is exactly one path expression. */
  predicate IsPath(x: string) {
    0 < |x| && PathEnd(x, 0) == |x|
  }

  /** A piece that renders as written: literal text holds no `{`, and a
      hole is one complete path expression whose text holds no `{`, so no
      substitution can form a new placeholder. */
  predicate Inert(p: Piece, look: string -> Result<string, Fault>) {
    match p
    case Lit(a) => '{' !in a
    case Hole(x) => IsPath(x) && (look(x).Ok? ==> '{' !in look(x).value)
  }

  predicate AllInert(ps: seq<Piece>, look: string -> Result<string, Fault>) {
    |ps| == 0 || (Inert(ps[0], look) && AllInert(ps[1..], look))
  }

  function HoleCount(ps: seq<Piece>): nat {
    if |ps| == 0 then 0 else (if ps[0].Hole? then 1 else 0) + HoleCount(ps[1..])
  }

  /** Single left-to-right substitution: each hole replaced by its value. */
  function Expand(ps: seq<Piece>, look: string -> Result<string, Fault>): Result<string, Fault> {
    if |ps| == 0 then Ok("")
    else
      match ps[0]
      case Lit(a) => PrefixWith(a, Expand(ps[1..], look))
      case Hole(x) =>
        var d :- look(x);
        PrefixWith(d, Expand(ps[1..], look))
  }

  function PrefixWith(a: string, r: Result<string, Fault>): Result<string, Fault> {
    match r
    case Ok(s) => Ok(a + s)
    case Err(e) => Err(e)
  }

  // ---------------------------------------------------------------------
  // Lemmas

  /** The leftmost placeholder is the one with none before it. */
  lemma LeftmostAt(t: string, p: nat)
    requires PlaceholderAt(t, p)
    requires forall q | 0 <= q < p :: !PlaceholderAt(t, q)
    ensures Leftmost(t) == Found(t[..p], t[p + 2..PathEnd(t, p + 2)], t[PathEnd(t, p + 2) + 2..])
  {
    FindFromSpec(t, 0);
    assert FindFrom(t, 0) == p;
  }

  // Scanning is unaffected by text in front of the scanned part.

  lemma {:induction false} WordEndShift(a: string, s: string, i: nat)
    requires i <= |s|
    ensures WordEnd(a + s, |a| + i) == |a| + WordEnd(s, i)
    decreases |s| - i
  {
    if i < |s| {
      assert (a + s)[|a| + i] == s[i];
      WordEndShift(a, s, i + 1);
    }
  }

  lemma GroupEndShift(a: string, s: string, i: nat)
    requires i <= |s|
    ensures GroupEnd(a + s, |a| + i) == |a| + GroupEnd(s, i)
  {
    if i < |s| {
      WordEndShift(a, s, i + 1);
    }
  }

  lemma {:induction false} GroupsEndShift(a: string, s: string, i: nat)
    requires i <= |s|
    ensures GroupsEnd(a + s, |a| + i) == |a| + GroupsEnd(s, i)
    decreases |s| - i
  {
    GroupEndShift(a, s, i);
    var j := GroupEnd(s, i);
    if j != i {
      GroupsEndShift(a, s, j);
    }
  }

  lemma PathEndShift(a: string, s: string, i: nat)
    requires i <= |s|
    ensures PathEnd(a + s, |a| + i) == |a| + PathEnd(s, i)
  {
    WordEndShift(a, s, i);
    GroupsEndShift(a, s, WordEnd(s, i));
  }

  // Scanning is unaffected by a closing brace after the scanned part.

  lemma {:induction false} WordEndBrace(x: string, z: string, i: nat)
    requires i <= |x|
    requires |z| > 0 && z[0] == '}'
    ensures WordEnd(x + z, i) == WordEnd(x, i)
    decreases |x| - i
  {
    if i < |x| {
      assert (x + z)[i] == x[i];
      WordEndBrace(x, z, i + 1);
    } else {
      assert (x + z)[i] == '}';
    }
  }

  lemma GroupEndBrace(x: string, z: string, i: nat)
    requires i <= |x|
    requires |z| > 0 && z[0] == '}'
    ensures GroupEnd(x + z, i) == GroupEnd(x, i)
  {
    if i < |x| {
      WordEndBrace(x, z, i + 1);
    }
  }

  lemma {:induction false} GroupsEndBrace(x: string, z: string, i: nat)
    requires i <= |x|
    requires |z| > 0 && z[0] == '}'
    ensures GroupsEnd(x + z, i) == GroupsEnd(x, i)
    decreases |x| - i
  {
    GroupEndBrace(x, z, i);
    var j := GroupEnd(x, i);
    if j != i {
      GroupsEndBrace(x, z, j);
    }
  }

  lemma PathEndBrace(x: string, z: string)
    requires |z| > 0 && z[0] == '}'
    ensures PathEnd(x + z, 0) == PathEnd(x, 0)
  {
    WordEndBrace(x, z, 0);
    GroupsEndBrace(x, z, WordEnd(x, 0));
  }

  /** A placeholder of `s` is one of `a + s`, shifted by `|a|`. */
  lemma PlaceholderAtShift(a: string, s: string, i: nat)
    requires i <= |s|
    ensures PlaceholderAt(a + s, |a| + i) == PlaceholderAt(s, i)
  {
    if i + 2 <= |s| {
      PathEndShift(a, s, i + 2);
    }
  }

  lemma {:induction false} FindFromShift(a: string, s: string, i: nat)
    requires i <= |s|
    ensures FindFrom(a + s, |a| + i) == |a| + FindFrom(s, i)
    decreases |s| - i
  {
    hide PlaceholderAt, PathEnd;
    if i < |s| {
      PlaceholderAtShift(a, s, i);
      FindFromShift(a, s, i + 1);
    }
  }

  lemma {:induction false} FindFromSkip(a: string, s: string, i: nat)
    requires '{' !in a
    requires i <= |a|
    ensures FindFrom(a + s, i) == FindFrom(a + s, |a|)
    decreases |a| - i
  {
    if i < |a| {
      assert (a + s)[i] == a[i];
      FindFromSkip(a, s, i + 1);
    }
  }

  /** The leftmost placeholder of `t`, given where the scan stops. */
  lemma LeftmostOf(t: string, q: nat, e: nat)
    requires q + 2 <= |t| && FindFrom(t, 0) == q && PathEnd(t, q + 2) == e
    ensures q + 2 <= e && e + 2 <= |t|
    ensures Leftmost(t) == Found(t[..q], t[q + 2..e], t[e + 2..])
  {
    FindFromSpec(t, 0);
  }

  /** The scan of `a + s` stops where the scan of `s` does, shifted by `|a|`. */
  lemma FindShiftFound(a: string, s: string, p: nat)
    requires '{' !in a
    requires p < |s| && FindFrom(s, 0) == p
    ensures FindFrom(a + s, 0) == |a| + p
  {
    FindFromSkip(a, s, 0);
    FindFromShift(a, s, 0);
  }

  /** The leftmost placeholder of `t`, given where the scan stops and
      what lies around it. */
  lemma LeftmostOfParts(t: string, q: nat, e: nat, b: string, x: string, c: string)
    requires q + 2 <= |t| && FindFrom(t, 0) == q && PathEnd(t, q + 2) == e
    requires e + 2 <= |t| && t[..q] == b && t[q + 2..e] == x && t[e + 2..] == c
    ensures Leftmost(t) == Found(b, x, c)
  {
    LeftmostOf(t, q, e);
  }

  lemma LeftmostShiftFound(a: string, s: string, b: string, x: string, c: string)
    requires '{' !in a
    requires Leftmost(s) == Found(b, x, c)
    ensures Leftmost(a + s) == Found(a + b, x, c)
  {
    hide *;
    var p := |b|;
    var e := p + 2 + |x|;
    LeftmostParts(s);
    ScanShift(a, s, b, x, c);
    SliceShift(a, s, p, e);
    LeftmostOfParts(a + s, |a| + p, |a| + e, a + b, x, c);
  }

  lemma ScanShift(a: string, s: string, b: string, x: string, c: string)
    requires '{' !in a
    requires Leftmost(s) == Found(b, x, c)
    ensures |b| + 4 + |x| <= |s|
    ensures FindFrom(a + s, 0) == |a| + |b|
    ensures PathEnd(a + s, |a| + |b| + 2) == |a| + |b| + 2 + |x|
  {
    hide *;
    var p := |b|;
    LeftmostParts(s);
    FindShiftFound(a, s, p);
    PathEndShift(a, s, p + 2);
  }

  lemma ConcatAssoc(a: string, b: string, d: string, c: string)
    ensures (a + b) + d + c == a + (b + d + c)
  {
  }

  lemma SliceShift(a: string, s: string, p: nat, e: nat)
    requires p + 2 <= e && e + 2 <= |s|
    ensures (a + s)[..|a| + p] == a + s[..p]
    ensures (a + s)[|a| + p + 2..|a| + e] == s[p + 2..e]
    ensures (a + s)[|a| + e + 2..] == s[e + 2..]
  {
  }

  /** A prefix without `{` does not move the leftmost placeholder. */
  lemma LeftmostShift(a: string, s: string)
    requires '{' !in a
    ensures Leftmost(a + s) ==
      (match Leftmost(s)
       case Clean => Clean
       case Found(b, x, c) => Found(a + b, x, c))
  {
    match Leftmost(s)
    case Clean =>
      FindFromSkip(a, s, 0);
      FindFromShift(a, s, 0);
    case Found(b, x, c) => LeftmostShiftFound(a, s, b, x, c);
  }

  /** A literal prefix without `{` passes through rendering untouched. */
  lemma {:induction false} RenderLiteralPrefix(a: string, s: string, look: string -> Result<string, Fault>, fuel: nat)
    requires '{' !in a
    ensures RenderWith(a + s, look, fuel) == PrefixWith(a, RenderWith(s, look, fuel))
    decreases fuel
  {
    hide RenderWith, Leftmost, NoPlaceholder, PlaceholderAt;
    RenderStep(a + s, look, fuel);
    RenderStep(s, look, fuel);
    LeftmostShift(a, s);
    match Leftmost(s)
    case Clean =>
    case Found(b, x, c) =>
      if fuel > 0 && look(x).Ok? {
        var d := look(x).value;
        ConcatAssoc(a, b, d, c);
        RenderLiteralPrefix(a, b + d + c, look, fuel - 1);
      }
  }

  /** A well-formed hole at the start of a template is a placeholder. */
  lemma HoleAt(x: string, s: string)
    requires IsPath(x)
    ensures PathEnd("{{" + (x + ("}}" + s)), 2) == 2 + |x|
    ensures PlaceholderAt("{{" + (x + ("}}" + s)), 0)
  {
    var rest := "}}" + s;
    var t := "{{" + (x + rest);
    PathEndBrace(x, rest);
    PathEndShift("{{", x + rest, 0);
    assert t[2 + |x|] == rest[0] && t[3 + |x|] == rest[1];
  }

  lemma LeftmostHole(x: string, s: string)
    requires IsPath(x)
    ensures Leftmost("{{" + x + "}}" + s) == Found("", x, s)
  {
    hide *;
    var rest := "}}" + s;
    var t := "{{" + (x + rest);
    assert t == "{{" + x + "}}" + s;
    HoleAt(x, s);
    LeftmostAt(t, 0);
    SlicePrefix("{{", x + rest, 0, |x|);
    SliceAppend(x, rest, 0, |x|);
    DropPrefix("{{", x + rest, |x| + 2);
    DropPrefix(x, rest, 2);
    DropPrefix("}}", s, 0);
  }

  /** One substitution step at a leading hole. */
  lemma RenderHole(x: string, s: string, look: string -> Result<string, Fault>, fuel: nat)
    requires IsPath(x) && fuel > 0
    ensures RenderWith("{{" + x + "}}" + s, look, fuel) ==
      (match look(x)
       case Err(f) => Err(f)
       case Ok(d) => RenderWith(d + s, look, fuel - 1))
  {
    hide RenderWith, Leftmost;
    RenderStep("{{" + x + "}}" + s, look, fuel);
    LeftmostHole(x, s);
    if look(x).Ok? {
      assert "" + look(x).value + s == look(x).value + s;
    }
  }

  /** The rest of an inert template is inert and holds the remaining holes. */
  lemma TailFacts(ps: seq<Piece>, look: string -> Result<string, Fault>)
    requires |ps| > 0 && AllInert(ps, look)
    ensures AllInert(ps[1..], look)
    ensures HoleCount(ps) == (if ps[0].Hole? then 1 else 0) + HoleCount(ps[1..])
  {
  }

  /** How a non-empty template is laid out. */
  lemma FlattenFirst(ps: seq<Piece>)
    requires |ps| > 0
    ensures Flatten(ps) == (match ps[0]
      case Lit(a) => a + Flatten(ps[1..])
      case Hole(x) => "{{" + x + "}}" + Flatten(ps[1..]))
  {
  }

  /** A leading hole whose value is inert: substituting it and then
      rendering the rest is rendering the rest behind the value. */
  lemma RenderHoleThen(x: string, s: string, look: string -> Result<string, Fault>, fuel: nat, rest: Result<string, Fault>)
    requires IsPath(x) && fuel > 0
    requires look(x).Ok? ==> '{' !in look(x).value && RenderWith(s, look, fuel - 1) == rest
    ensures look(x).Err? ==> RenderWith("{{" + x + "}}" + s, look, fuel) == Err(look(x).error)
    ensures look(x).Ok? ==> RenderWith("{{" + x + "}}" + s, look, fuel) == PrefixWith(look(x).value, rest)
  {
    hide RenderWith;
    RenderHole(x, s, look, fuel);
    if look(x).Ok? {
      var d := look(x).value;
      RenderLiteralPrefix(d, s, look, fuel - 1);
    }
  }

  /** The empty template renders as itself. */
  lemma RenderEmpty(look: string -> Result<string, Fault>, fuel: nat)
    ensures RenderWith("", look, fuel) == Ok("")
  {
    assert Leftmost("") == Clean;
  }

  /** One literal piece in front of a template that renders as expanded. */
  lemma ExpandLitStep(ps: seq<Piece>, look: string -> Result<string, Fault>, fuel: nat)
    requires |ps| > 0 && ps[0].Lit? && AllInert(ps, look)
    requires RenderWith(Flatten(ps[1..]), look, fuel) == Expand(ps[1..], look)
    ensures RenderWith(Flatten(ps), look, fuel) == Expand(ps, look)
  {
    FlattenFirst(ps);
    RenderLiteralPrefix(ps[0].text, Flatten(ps[1..]), look, fuel);
  }

  /** One inert hole in front of a template that renders as expanded. */
  lemma ExpandHoleStep(ps: seq<Piece>, look: string -> Result<string, Fault>, fuel: nat)
    requires |ps| > 0 && ps[0].Hole? && AllInert(ps, look) && fuel >= HoleCount(ps)
    requires RenderWith(Flatten(ps[1..]), look, fuel - 1) == Expand(ps[1..], look)
    ensures RenderWith(Flatten(ps), look, fuel) == Expand(ps, look)
  {
    FlattenFirst(ps);
    RenderHoleThen(ps[0].path, Flatten(ps[1..]), look, fuel, Expand(ps[1..], look));
  }

  /** The substitution loop on an inert template with enough steps is the
      single left-to-right substitution of its holes. */
  lemma {:induction false} RenderWithIsExpand(ps: seq<Piece>, look: string -> Result<string, Fault>, fuel: nat)
    requires AllInert(ps, look)
    requires fuel >= HoleCount(ps)
    ensures RenderWith(Flatten(ps), look, fuel) == Expand(ps, look)
  {
    hide RenderWith;
    if |ps| == 0 {
      RenderEmpty(look, fuel);
    } else if ps[0].Lit? {
      TailFacts(ps, look);
      RenderWithIsExpand(ps[1..], look, fuel);
      ExpandLitStep(ps, look, fuel);
    } else {
      TailFacts(ps, look);
      RenderWithIsExpand(ps[1..], look, fuel - 1);
      ExpandHoleStep(ps, look, fuel);
    }
  }

  /** `parseTemplate` on a template whose literal text and values hold no
      `{`, with enough steps, substitutes each hole once, left to right. */
  lemma RenderIsExpand(ps: seq<Piece>, values: Value, fuel: nat)
    requires AllInert(ps, p => Lookup(values, p))
    requires fuel >= HoleCount(ps)
    ensures Render(Flatten(ps), values, fuel) == Expand(ps, p => Lookup(values, p))
  {
    RenderWithIsExpand(ps, p => Lookup(values, p), fuel);
  }

  lemma SplitAB()
    ensures Split("a.b", '.') == ["a", "b"]
  {
    assert "a.b"[1..] == ".b" && ".b"[1..] == "b" && "b"[1..] == "";
    assert Split("", '.') == [""];
    assert ['b'] + "" == "b" && ['a'] + "" == "a";
    assert Split("b", '.') == ["b"];
    assert Split(".b", '.') == ["", "b"];
    assert ["", "b"][1..] == ["b"];
  }

  lemma LookupAB(values: Value)
    requires values == Obj(map["a" := Obj(map["b" := Str("x")])])
    ensures Lookup(values, "a.b") == Ok("x")
  {
    assert "a.b"[1..] == ".b" && ".b"[1..] == "b" && "b"[1..] == "";
    assert Normalize("a.b") == "a.b" by {
      assert Normalize("b") == "b";
      assert Normalize(".b") == ".b";
    }
    SplitAB();
    assert ["a", "b"][1..] == ["b"];
  }

  lemma PathAB()
    ensures IsPath("a.b")
  {
    assert WordEnd("a.b", 0) == 1;
    assert WordEnd("a.b", 2) == 3;
    assert GroupEnd("a.b", 1) == 3;
    assert GroupEnd("a.b", 3) == 3;
  }

  lemma FlattenAB()
    ensures Flatten([Hole("a.b"), Lit("-"), Hole("a.b")]) == "{{a.b}}-{{a.b}}"
  {
    var ps := [Hole("a.b"), Lit("-"), Hole("a.b")];
    assert ps[1..] == [Lit("-"), Hole("a.b")] && ps[1..][1..] == [Hole("a.b")] && ps[1..][1..][1..] == [];
    assert Flatten(ps[1..][1..]) == "{{a.b}}";
    assert Flatten(ps[1..]) == "-{{a.b}}";
  }

  lemma ExpandAB(look: string -> Result<string, Fault>)
    requires look("a.b") == Ok("x")
    ensures Expand([Hole("a.b"), Lit("-"), Hole("a.b")], look) == Ok("x-x")
  {
    var ps := [Hole("a.b"), Lit("-"), Hole("a.b")];
    assert ps[1..] == [Lit("-"), Hole("a.b")] && ps[1..][1..] == [Hole("a.b")] && ps[1..][1..][1..] == [];
    assert "x" + "" == "x" && "-" + "x" == "-x" && "x" + "-x" == "x-x";
    assert Expand(ps[1..][1..][1..], look) == Ok("");
    assert Expand(ps[1..][1..], look) == Ok("x");
    assert Expand(ps[1..], look) == Ok("-x");
  }

  /** The same placeholder twice is substituted twice:
      `"{{a.b}}-{{a.b}}"` with `a.b = "x"` renders as `"x-x"`. */
  lemma RepeatedPlaceholder(fuel: nat)
    requires fuel >= 2
    ensures Render("{{a.b}}-{{a.b}}", Obj(map["a" := Obj(map["b" := Str("x")])]), fuel) == Ok("x-x")
  {
    var values := Obj(map["a" := Obj(map["b" := Str("x")])]);
    var look := p => Lookup(values, p);
    var ps := [Hole("a.b"), Lit("-"), Hole("a.b")];
    LookupAB(values);
    PathAB();
    FlattenAB();
    ExpandAB(look);
    hide Lookup, PathEnd, Render, Flatten, Expand;
    assert ps[1..] == [Lit("-"), Hole("a.b")] && ps[1..][1..] == [Hole("a.b")] && ps[1..][1..][1..] == [];
    assert AllInert(ps, look);
    assert HoleCount(ps) == 2;
    RenderIsExpand(ps, values, fuel);
  }
}

=== FILE: wrappers.dfy ===
/** Failure-compatible wrappers used across the model. */
module Wrappers {

  /** An optional value; in the JavaScript model `None` stands for `undefined`. */
  datatype Option<+T> = None | Some(value: T)

  /** A computation that either produces a value or stops with an error. */
  datatype Result<+T, +E> = Ok(value: T) | Err(error: E) {

    predicate IsFailure() {
      Err?
    }

    function PropagateFailure<U>(): Result<U, E>
      requires Err?
    {
      Err(error)
    }

    function Extract(): T
      requires Ok?
    {
      value
    }
  }
}
